=== FILE: README.md ===
# Contrail vCenter Fabric Manager: a verified model of the reconciliation core

This Dafny project models three pieces of the fabric manager:

- **The controller client** (`cvfm/clients/vnc.py`). It keeps the fabric controller's objects in step with vCenter. The objects are virtual networks (VNs), virtual port groups (VPGs), virtual machine interfaces (VMIs) and physical interfaces (PIs). The client covers:
  - listing only the objects this manager created;
  - create, read, update and delete calls that absorb the controller's "already exists" and "not found" errors;
  - detaching a VMI from its VPG, deleting the VPG once it is empty;
  - deleting a VN together with its VMIs;
  - attaching and detaching PIs in batches;
  - building VMI bindings from a VPG, and skipping the update when they are already current;
  - moving a VMI to a new VLAN by deleting it and creating it again.
- **DVS discovery at start-up** (`cvfm/services/dvs.py`). Every port whose ESXi information carries a non-empty `dvs_name` has that distributed virtual switch (DVS) name recorded as supported; other ports are skipped.
- **The requirements-file helper** (`setup.py`). It strips comments and whitespace from each line and drops lines that end up empty.

Modules:

- `Wrappers` (`wrappers.dfy`): `Option` and `Result`.
- `Sequences` (`sequences.dfy`): a subsequence relation, and removal of every occurrence of a value.
- `Maps` (`maps.dfy`): facts about updating and removing one key of a map.
- `Controller` (`controller.dfy`): the controller as the client sees it. It is an id-keyed store of VNs, VPGs, VMIs and PIs with a log of the writes it applied. Its primitives:
  - create, update and delete each object kind;
  - refuse a write that names a VN or VMI it does not hold;
  - raise `NoIdError` (not found) or `RefsExistError` (already exists, or still referenced);
  - keep the back-references that follow from the forward ones.

  The controller is outside the modelled source. This module fixes the behaviour the client relies on.
- `VncClient` (`vnc_client.dfy`): the client's methods. Each is a function from the store, and the in-memory objects the method receives, to a `Result`: the new store, or the exception that escapes.
  - `Crash` is an exception raised by the client's own code, when it dereferences a `None`, indexes a missing back-reference list, or indexes past the end of a name.
  - Whether a call issued a write is visible in the write log, separately from what the store holds.
- `VncProperties` (`vnc_properties.dfy`): properties that relate several calls:
  - consistency of the controller's references (`Linked`), and its preservation by detach, VMI delete, VPG delete and VN delete. Consistency means four things:
    - a VMI's VPG back-refs name VPGs that list it;
    - a VPG's VMI refs name existing VMIs that list it as a back-ref;
    - a VMI has at most one VPG;
    - VN back-refs name exactly the existing VMIs that refer to the VN;
  - idempotent create;
  - the PI attach/detach round trip;
  - binding elision;
  - identity preservation across VLAN migration.
- `Requirements` (`requirements.dfy`): the requirements transform.
  - The regular expression `\s*#.*` is modelled as Python's leftmost, non-overlapping substitution.
  - Whitespace is the set of characters Python's `str.isspace` accepts.
  - A lemma shows that, on a line without a newline, the substitution cuts the line at its first `#`.
- `DvsService` (`dvs.dfy`): DVS discovery over the list of ports the controller returns. The database is the sequence of names handed to it.

## Model

| member | source | states |
|---|---|---|
| VncClient.HasProperCreator | cvfm/clients/vnc.py:17-21 | true exactly when `id_perms` is present and its creator equals the manager's tag; absent `id_perms` is never ours |
| VncClient.ReadAllOwned | cvfm/clients/vnc.py:84-100 | the result is a subsequence of the listing that holds every owned object exactly as often as listed and nothing else |
| VncClient.CreateVn | cvfm/clients/vnc.py:63-68 | an existing uuid or name leaves the store untouched; otherwise the VN is stored with no back-refs, one create is logged, and nothing else changes; either way the VN exists afterwards |
| VncClient.CreateVpg | cvfm/clients/vnc.py:70-75 | an existing uuid or name is "already exists", absorbed with the store untouched; otherwise the create fails with "not found" exactly when a VMI ref names no stored VMI, and on success the VPG reads back as given, one create is logged, each VMI it refers to gains the VPG as a back-ref, and no other VPG, VMI, VN or PI changes |
| VncClient.CreateVmi | cvfm/clients/vnc.py:77-82 | an existing uuid or name is absorbed with the store untouched; otherwise the create fails with "not found" exactly when a VN ref names no stored VN; on success the new VMI is the only VMI entry that changes, each VN it refers to gains it as a back-ref, every other VN is untouched, and VPGs and PIs are untouched |
| VncClient.ReadVn | cvfm/clients/vnc.py:102-107 | `Some` of the stored VN exactly when the uuid is stored, `None` otherwise |
| VncClient.ReadVpg | cvfm/clients/vnc.py:109-114 | `Some` of the stored VPG exactly when the uuid is stored, `None` otherwise |
| VncClient.ReadVmi | cvfm/clients/vnc.py:116-121 | `Some` of the stored VMI exactly when the uuid is stored, `None` otherwise |
| VncClient.ReadPi | cvfm/clients/vnc.py:179-183 | `Some` of the stored PI exactly when the uuid is stored, the implicit `None` otherwise |
| VncClient.UpdateVpg | cvfm/clients/vnc.py:123-130 | a missing VPG, or an added VMI ref that names no stored VMI, is "not found" and leaves the store untouched; otherwise the VPG gets the given VMI and PI refs, one update is logged, the VMIs' back-refs follow the refs gained and lost, and no other VPG, VN or PI changes; the set of VPGs never changes |
| VncClient.DeleteVpg | cvfm/clients/vnc.py:140-145 | the VPG is gone afterwards and no other VPG changes; the VMIs it referred to lose their back-ref to it, and VNs and PIs are untouched; an absent VPG is not an error and issues no write |
| VncClient.DetachVmiFromVpg | cvfm/clients/vnc.py:221-234 | a missing VMI or one without VPG back-refs is a no-op; a missing first VPG raises; otherwise only that VPG loses the VMI, it is deleted exactly when no VMI is left, the VMI loses that back-ref, VNs and PIs are untouched, and the writes are one update plus one delete when emptied |
| VncClient.DeleteVmi | cvfm/clients/vnc.py:132-138 | an absent VMI is a no-op; on success exactly that VMI is gone and every other VMI is unchanged; the VNs it referred to lose it as a back-ref and every other VN is unchanged; its first VPG loses it and is deleted exactly when no VMI is left, every other VPG is unchanged, so no VPG that had VMI refs is left without any; PIs are kept; the last write deletes the VMI after the detach update |
| VncClient.DetachFrame | cvfm/clients/vnc.py:133 | the detach step of `delete_vmi` keeps the VMIs and their VN refs, adds no VPG, issues the VPG update first, and clears the back-ref of a VMI with one VPG that lists it |
| VncClient.DeleteDetached | cvfm/clients/vnc.py:134-138 | deleting an absent VMI is a no-op; a VMI without VPG back-refs is removed with one delete write, the VNs it referred to lose it as a back-ref, other VNs, VPGs and PIs kept; one still referenced is refused |
| VncClient.DeleteKeepsOtherVmis | cvfm/clients/vnc.py:132-138 | helper for `DeleteVmi`: detach then delete keeps every other VMI and removes the VMI from exactly its VNs' back-refs |
| VncClient.DeleteKeepsOtherVpgs | cvfm/clients/vnc.py:132-138 | helper for `DeleteVmi`: with the VPGs the detach left, only the VMI's first VPG has changed, losing the VMI and going once empty, so no VPG that had VMI refs survives without any |
| VncClient.DeleteVmis | cvfm/clients/vnc.py:150-153 | on success exactly the listed VMIs are gone, the others unchanged; no VN is removed and VNs only lose back-refs; VPGs only lose VMI refs or disappear, and one that had VMI refs and remains still has some; PIs are kept |
| VncClient.DeleteVn | cvfm/clients/vnc.py:147-159 | a missing VN raises; on success the VN and exactly the VMIs it listed are gone, every other VMI is unchanged, every other VN remains and only loses back-refs, VPGs only lose VMI refs or disappear, one that had VMI refs and remains still has some, and PIs are kept |
| VncClient.AddPi | cvfm/clients/vnc.py:197-198 | the PI's uuid joins the referenced set and existing refs stay in place as a prefix |
| VncClient.AddPis | cvfm/clients/vnc.py:197-198 | the referenced set grows by exactly the batch's uuids and existing refs stay as a prefix |
| VncClient.DropPiUuids | cvfm/clients/vnc.py:212 | dropping the refs for one uuid removes exactly that uuid from the referenced set |
| VncClient.DropPiKeepsOrder | cvfm/clients/vnc.py:212 | dropping refs keeps the remaining ones in their original order |
| VncClient.DelPi | cvfm/clients/vnc.py:212 | the referenced set loses exactly that uuid and the remaining refs keep their order |
| VncClient.DelPis | cvfm/clients/vnc.py:210-212 | succeeds exactly when every uuid names a stored PI, otherwise the `None` dereference raises; on success the referenced set loses exactly the listed uuids, keeping order |
| Sequences.SubsequenceTransitive | cvfm/clients/vnc.py:210-212 | helper for `DelPis`: removing refs twice keeps the order of the original refs, because the subsequence relation is transitive |
| VncClient.AttachPisToVpg | cvfm/clients/vnc.py:194-205 | an empty batch is a no-op; otherwise success exactly when the VPG exists and every VMI ref the in-memory VPG adds names a stored VMI, failure is "not found", a single VPG update adds the batch's uuids, existing refs are kept, the pushed VMI refs are stored with back-refs following them, and no other VPG, VN or PI changes |
| VncClient.DetachPisFromVpg | cvfm/clients/vnc.py:207-219 | an empty batch is a no-op; any unknown PI raises; otherwise success exactly when the VPG exists and every VMI ref the in-memory VPG adds names a stored VMI, and a single VPG update removes exactly the listed uuids, the pushed VMI refs are stored with back-refs following them, and no other VPG, VN or PI changes |
| VncClient.LocalLinks | cvfm/clients/vnc.py:237-252 | one link per PI ref, in order; port and switch id are the ref's third name component, switch info its second, fabric the VPG's second |
| VncClient.LinksFor | cvfm/clients/vnc.py:243-251 | one link per ref, in order, each built from that ref and the shared fabric |
| VncClient.Bindings | cvfm/clients/vnc.py:242-260 | exactly the three pairs `vpg` (the VPG's name), `vnic_type` (`baremetal`) and `profile` (the local links) |
| VncClient.CreateVmiBindings | cvfm/clients/vnc.py:236-269 | raises exactly when a PI ref name lacks a port component or, with links to describe, the VPG name lacks a fabric component, before any write; otherwise no write when the VMI's bindings equal the new pairs as a set; otherwise one VMI update that sets exactly those bindings and changes nothing else, failing only when the VMI is gone |
| VncClient.GetVnVlan | cvfm/clients/vnc.py:271-279 | `None` for a VN without VMI back-refs; otherwise the VLAN tag of the first VMI, raising when that VMI or its properties are missing |
| VncClient.VmiWithNewVlan | cvfm/clients/vnc.py:310-323 | same uuid and name, only the given VN, the new VLAN tag, the old bindings verbatim, marked as ours, and no VPG back-refs |
| VncClient.DeleteOldVmi | cvfm/clients/vnc.py:325-330 | succeeds exactly when the old VMI exists and either has no VPG back-ref, or the stored VPG lists it, the pushed refs resolve and that VPG is its only back-ref; otherwise an absent VMI escapes as "not found" and a still-referenced one as "refs exist"; on success exactly the old VMI is removed, the other VMIs change only in VPG back-refs, the VNs it referred to lose it and the others are unchanged, and PIs are kept; when the push went through the VPG takes the in-memory PI refs and VMI refs without the old VMI, no other VPG changes, and the writes are the update then the delete; otherwise the VPGs are unchanged and the only write is the delete; the VPG is never deleted |
| VncClient.PushWithout | cvfm/clients/vnc.py:326-328 | pushing the VPG without a VMI changes only VMI back-refs, and leaves that VMI without VPG back-refs exactly when it had none or the push took it out of its only VPG |
| VncClient.CreateNewVmi | cvfm/clients/vnc.py:332-338 | fails, with "not found", exactly when the create is not absorbed and a VN ref names no stored VN; on success the VPG set is unchanged and no VMI but the new one appears; the VPG's VMI refs become the given ones plus the new VMI when every added ref names a stored VMI, and otherwise the VPGs are as before, so the VPG never gains a dangling VMI ref |
| VncClient.RecreateVmiWithNewVlan | cvfm/clients/vnc.py:291-308 | a missing first back-ref or VPG raises; on success no VPG is created or deleted, the VPG refers to the VMI exactly when the VMI exists, its PI refs are intact, and no VMI appears |
| VncProperties.RemovalKeepsVnSound | cvfm/clients/vnc.py:135 | after the controller removes a VMI, every VN back-ref still names an existing VMI that refers to that VN |
| VncProperties.RemovalKeepsVnComplete | cvfm/clients/vnc.py:135 | after the controller removes a VMI, every remaining VMI is still listed by the VNs it refers to |
| VncProperties.RemovalShrinksVnSide | cvfm/clients/vnc.py:135 | removing a VMI only takes entries out of VN back-refs, that VMI's among them |
| VncProperties.RemovedBackRefWasThere | cvfm/clients/vnc.py:135 | after the removal, a VN back-ref was already there, is not the removed VMI, and names a remaining VMI that refers to the VN |
| VncProperties.VmiDeleteKeepsLinked | cvfm/clients/vnc.py:134-138 | the controller deletes a VMI without VPG back-refs (so no VPG lists it), references stay consistent, and VN back-refs only shrink |
| VncProperties.DetachSucceeds | cvfm/clients/vnc.py:221-234 | when back-refs are sound, detaching never raises and leaves VNs and every VMI's VN refs alone |
| VncProperties.DetachEmptiesBackRefs | cvfm/clients/vnc.py:221-234 | when a VMI has a single VPG, detaching leaves it with no VPG back-ref |
| VncProperties.DetachKeepsOthers | cvfm/clients/vnc.py:221-234 | detaching changes no other VMI, adds no VPG and changes no other VPG, and the VPG remains, with the remaining refs, exactly when any are left |
| VncProperties.DetachedSound | cvfm/clients/vnc.py:221-234 | a store changed only as detaching changes it keeps VPG back-refs and VPG refs sound and one VPG per VMI |
| VncProperties.DetachKeepsLinked | cvfm/clients/vnc.py:221-234 | on a consistent controller, detach succeeds, keeps the references consistent and empties the VMI's VPG back-refs |
| VncProperties.DeleteVmiKeepsLinked | cvfm/clients/vnc.py:132-138 | on a consistent controller, `delete_vmi` succeeds, keeps it consistent, only removes VN back-refs, the VMI's among them, and leaves no VPG listing the deleted VMI |
| VncProperties.DeleteVmisEmptiesBackRefs | cvfm/clients/vnc.py:150-153 | deleting a list that covers a VN's VMI back-refs succeeds, keeps consistency and leaves that VN with no VMI back-refs |
| VncProperties.DeleteVpgKeepsLinked | cvfm/clients/vnc.py:140-145 | deleting a VPG from a consistent controller keeps it consistent and leaves no VMI with a back-ref to it |
| VncProperties.DroppedVpgLinked | cvfm/clients/vnc.py:140-145 | helper: a store that lost one VPG, whose VMIs lost exactly their back-ref to it, stays consistent |
| VncProperties.DroppedVpgVmiSide | cvfm/clients/vnc.py:140-145 | helper: the VPG side of consistency survives losing one VPG whose VMIs lost exactly their back-ref to it |
| VncProperties.VpgDropStep | cvfm/clients/vnc.py:140-145 | helper: deleting a VPG removes its back-ref from one VMI and changes nothing else about it |
| VncProperties.VnDeleteKeepsLinked | cvfm/clients/vnc.py:155-159 | a VN without VMI back-refs is deleted, no VMI refers to it, and consistency holds |
| VncProperties.DeleteVnCascades | cvfm/clients/vnc.py:147-159 | on a consistent controller, `delete_vn` succeeds, no remaining VMI refers to the VN, references stay consistent, every remaining VPG lists only remaining VMIs, and a VPG that had VMI refs is gone rather than left without any |
| VncProperties.CreateVnTwiceIsOnce | cvfm/clients/vnc.py:63-68 | creating a VN twice has the same effect as creating it once |
| VncProperties.CreateVpgTwiceIsOnce | cvfm/clients/vnc.py:70-75 | creating a VPG twice has the same effect as creating it once |
| VncProperties.CreateVmiTwiceIsOnce | cvfm/clients/vnc.py:77-82 | creating a VMI twice has the same effect as creating it once |
| VncProperties.DelPiAppend | cvfm/clients/vnc.py:212 | dropping a uuid that the prefix does not hold edits only the suffix |
| VncProperties.DelPisKeepsPrefix | cvfm/clients/vnc.py:210-212 | detaching uuids that the prefix does not hold keeps the prefix and removes them from the suffix |
| VncProperties.AddPisAppendsNew | cvfm/clients/vnc.py:197-198 | every ref appended by an attach is one of the batch's interfaces and was not referenced before |
| VncProperties.AppendedUuids | cvfm/clients/vnc.py:197-198 | the appended refs' uuids are among the batch's |
| VncProperties.AddThenDelRestores | cvfm/clients/vnc.py:197-212 | adding new interfaces, then removing the same ones, gives back the original refs exactly |
| VncProperties.AttachThenDetachRestores | cvfm/clients/vnc.py:194-219 | attaching PIs that were not attached, then detaching them, restores the VPG's refs exactly with one update per non-empty batch |
| VncProperties.BindingsSecondCallIsNoOp | cvfm/clients/vnc.py:262-269 | a second binding call from the same VPG issues no write |
| VncProperties.UnlinkStep | cvfm/clients/vnc.py:326-328 | removing a VMI from its only VPG clears that VMI's back-refs and changes no other VMI |
| VncProperties.LinkStep | cvfm/clients/vnc.py:334-338 | adding a VMI without back-refs to a VPG makes it that VMI's only VPG and changes no other VMI |
| VncProperties.VacateStep | cvfm/clients/vnc.py:325-330 | removing a VMI from its only VPG and deleting it succeeds, drops exactly that VMI and that ref, keeps the other VMIs and the PIs, and takes the VMI out of exactly the VNs it referred to |
| VncProperties.VacatedVnEmpty | cvfm/clients/vnc.py:325-330 | deleting a VN's only VMI empties that VN's back-refs |
| VncProperties.VacatedFrees | cvfm/clients/vnc.py:325-330 | `_delete_old_vmi` removes exactly the old VMI, detaches it from its VPG and frees its name |
| VncProperties.RecreateUnfolds | cvfm/clients/vnc.py:297-303 | when the migration's conditions hold, the VN among them, recreate succeeds with the vacated-then-created store |
| VncProperties.RecreateNeedsVn | cvfm/clients/vnc.py:297-303 | when everything but the VN is in place, the old VMI is deleted and the new one's create is refused, so recreate raises "not found" |
| VncProperties.AbsorbedCreateLeavesVpg | cvfm/clients/vnc.py:332-338 | when the create is absorbed because another VMI holds the name, the VPG push is refused and absorbed, and the store is unchanged |
| VncProperties.CreateNewVmiLinks | cvfm/clients/vnc.py:332-338 | on a store where the uuid and name are free and the VMI's VNs exist, the call succeeds, the VMI is created with the VPG as its only back-ref, only that VPG's refs change, the PIs are kept, and exactly the VMI's VNs list it last |
| VncProperties.MigratedFromVacated | cvfm/clients/vnc.py:302-303 | the vacated store has lost the old VMI and its ref, frees the name and still holds the VN, and `_create_new_vmi` on it and its stored VPG succeeds with the migrated store |
| VncProperties.MigratedVmis | cvfm/clients/vnc.py:299-303 | after the migration the VMI map equals the old one with just that VMI replaced |
| VncProperties.MigratedVpgs | cvfm/clients/vnc.py:302-303 | after the migration every VPG is as before |
| VncProperties.MigratedVns | cvfm/clients/vnc.py:299-303 | after the migration the PIs are as before, and each VN lost the old VMI where it referred to it, the new VMI's VN listing it last |
| VncProperties.RecreateKeepsIdentity | cvfm/clients/vnc.py:291-338 | under the migration's conditions, VLAN migration succeeds, keeps the VMI's uuid and name, gives it the new VLAN and the old bindings, re-attaches it to the same single VPG, touches no other VMI, changes no VPG, keeps the PIs, and takes the VMI out of the VNs it referred to and lists it last in the new VN |
| VncProperties.RecreateThenVlanIsNew | cvfm/clients/vnc.py:271-279 | after migrating a VN's only VMI, `get_vn_vlan` on that VN returns the new tag |
| Requirements.TextEnd | setup.py:9 | the end of the text: only whitespace follows it, and the character before it is not whitespace |
| Requirements.TextStart | setup.py:9 | the start of the text: only whitespace precedes it, and the character at it is not whitespace |
| Requirements.Strip | setup.py:9 | `str.strip()`: a slice of the input with whitespace only on either side, not starting or ending in whitespace |
| Requirements.HashOf | setup.py:8 | the `#` a `\s*#` match reaches, after whitespace only |
| Requirements.LineEnd | setup.py:8 | `.*` runs to the next newline or the end |
| Requirements.MatchStart | setup.py:8 | the leftmost position at which the pattern matches, or the end |
| Requirements.HashMatches | setup.py:8 | a `#` always starts a match |
| Requirements.MatchNeedsHash | setup.py:8 | every match contains a `#` |
| Requirements.Sub | setup.py:9 | the substitution leaves no `#` and adds no characters |
| Requirements.CleanLine | setup.py:9 | a cleaned line holds no `#` and is stripped |
| Requirements.DropEmpty | setup.py:9 | `filter(bool, ...)` keeps exactly the non-empty strings, in order, each as often as it occurs |
| Requirements.CleanAll | setup.py:9 | one cleaned line per input line; every one is `#`-free and stripped |
| Requirements.CleanAllAt | setup.py:9 | the cleaned line at each position is the cleaning of the input line at that position |
| Requirements.CleanAllAppend | setup.py:9 | cleaning works line by line: it distributes over concatenation |
| Requirements.CleanLines | setup.py:5-9 | at most as many outputs as lines; every output is non-empty, `#`-free and stripped; the outputs are exactly the non-empty cleaned lines, in order, each as often as it is cleaned to |
| Requirements.FirstHash | setup.py:8 | the index of the first `#`, or the length |
| Requirements.StripIgnoresTrailingSpace | setup.py:9 | appending whitespace does not change the stripped string |
| Requirements.SubCutsAtFirstHash | setup.py:8-9 | on a line without a newline, the cleaned line is the stripped prefix before the first `#` |
| Requirements.OutputsAreCutLines | setup.py:5-9 | each output is the stripped prefix before the first `#` of some input line |
| Requirements.DropEmptyAppend | setup.py:9 | filtering a concatenation is concatenating the filtered parts |
| Requirements.CleanLinesAppend | setup.py:5-9 | the transform works line by line: it distributes over concatenation |
| Requirements.CommentOnlyLineCleansToEmpty | setup.py:9 | a blank or comment-only line cleans to the empty string |
| Requirements.CommentOnlyLineDropped | setup.py:5-9 | a blank or comment-only line contributes no output wherever it stands |
| Requirements.CleanLineFixes | setup.py:9 | a stripped string without `#` is left unchanged by the cleaning |
| Requirements.NonEmptyKept | setup.py:9 | filtering strings that are all non-empty keeps them all |
| Requirements.FixedLinesKept | setup.py:5-9 | the transform returns any list of non-empty, stripped, `#`-free strings unchanged |
| Requirements.CleanLinesIdempotent | setup.py:5-9 | applying the transform to its own output changes nothing |
| DvsService.SupportedDvsName | cvfm/services/dvs.py:14-18 | a port yields a name exactly when its ESXi info is present and its `dvs_name` is a non-empty string; a missing or empty info yields none |
| DvsService.Names | cvfm/services/dvs.py:13-19 | the names from all the ports, in port order; at most one per port, all non-empty |
| DvsService.PopulateDbWithSupportedDvses | cvfm/services/dvs.py:11-20 | the database ends as before plus the ports' names in order; nothing is removed; every added name is some port's `dvs_name` |
| DvsService.NamesAppend | cvfm/services/dvs.py:13-19 | the walk is a left fold: the names of a concatenation are the names of its parts |
| DvsService.NamesSingle | cvfm/services/dvs.py:13-19 | one port contributes its own name exactly once, or nothing |
| DvsService.PortWithoutNameIgnored | cvfm/services/dvs.py:14-18 | a port without usable info or name leaves the result as if it were absent |
| DvsService.NamesFromPorts | cvfm/services/dvs.py:17-19 | every recorded name is the `dvs_name` of some port |
| DvsService.EveryNamedPortCounted | cvfm/services/dvs.py:17-19 | every port with a usable name contributes it, at the position given by the named ports before it |

## Left out

- Connection setup (`__init__`, lines 26-44) and the 180-second timeout: transport configuration, no logic.
- The error-translating class decorator: connection failures are not modelled.
- `get_project` and `check_project`: the admin project is a parameter (`Client.projectFqName`), and its absence is not modelled.
- Pass-through listing calls are left out, because each only forwards to the controller:
  - `read_fabric`;
  - `read_all_physical_routers`;
  - `get_nodes_by_host_names`;
  - `get_node_ports`;
  - `read_all_ports`;
  - `get_pis_by_port`;
  - `get_vmis_by_vn`.
- Logging, and the PI display names built only for log lines.
- `json.dumps` of the profile: the profile is kept as a structured value, so comparing bindings compares values, not their JSON text.
- The controller's API library sends only the fields an update modified. The model's VPG update writes both reference lists of the in-memory object, and its VMI update writes the bindings.
- The API library matches PI refs by fully qualified name, and removes the first match only. The model matches them by uuid and removes every match. The two agree while uuids and names are in one-to-one correspondence.
- The name a created object takes is its fully qualified name, and uniqueness is checked on the whole name.
- An absent back-reference list (`None` in the source) and an empty one are the same value. `DetachVmiFromVpg` therefore returns on an empty list where the source would raise on `vpg_refs[0]`.
- The setup.py file read and `splitlines`: the transform takes the list of lines, and the first-`#` characterisation assumes lines without `\n`, which is what `splitlines` yields.
- The database of supported DVSes is the sequence of names handed to it; its own de-duplication is not part of this model.
- Concurrency: the controller is accessed by one caller at a time.
- PI references in a VPG create or update are not looked up: the model's controller accepts a PI ref it does not hold.
- A VPG update looks up only the VMI refs it adds. The refs the stored VPG already holds are taken to resolve, since the controller keeps its references intact.
- The error for a write naming an object the controller does not hold is taken to be `NoIdError`, the API library's error for "not found".
- Objects passed in are changed in place in the source: the VPG by `attach_pis_to_vpg` and `detach_pis_from_vpg` (lines 198 and 212), and the VMI by `create_vmi_bindings` (line 268). The model returns only the new controller state, so what the caller's copy holds afterwards is not modelled. Within `recreate_vmi_with_new_vlan` the edited VPG is passed on explicitly.
- When an exception escapes midway, the model returns only the error and not the controller's state. The writes issued before it are kept by the controller but not modelled. Examples: the VMIs `delete_vn` already deleted (lines 150-153), and the VPG update of `_delete_old_vmi` before its delete fails (lines 326-329).
- VncClient.RecreateVmiWithNewVlan: its own contract only bounds the result. `VncProperties.RecreateKeepsIdentity` states the resulting VMIs, VPGs, VNs and PIs exactly, under the migration's conditions. The conditions are: the old VMI exists, its only VPG refers to it, its name is free, and the VN exists. The write log of the migration is not stated.
- VncClient.DeleteVmi: success is guaranteed in its contract only for a VMI with no VPG, or one whose single VPG refers back to it. The general guarantee is stated by `VncProperties.DeleteVmiKeepsLinked` for a consistent controller.
- VncClient.CreateNewVmi: states the VPG side, and the VMI side only as a bound. The VMI side is stated exactly by `VncProperties.CreateNewVmiLinks`, for a store where the uuid and name are free and the VMI's VNs exist.

=== FILE: controller.dfy ===
/** The fabric controller as the client sees it: an id-keyed store of virtual
    networks, virtual port groups, virtual machine interfaces and physical
    interfaces, and the create/update/delete primitives of its API.

    The controller is an external collaborator of `cvfm/clients/vnc.py`; this
    module fixes the behaviour the client relies on. Each primitive either
    returns the new store or raises one of the two error kinds the client
    distinguishes. Back-references are kept by the controller: updating a port
    group's VMI refs adds or removes that port group in the VMIs' back-ref
    lists, creating or deleting a VMI adds or removes it in its networks'
    back-ref lists. Deleting an object that still has back-references is
    refused, as the controller's referential integrity demands, and so is a
    write that adds a reference to an object the controller does not hold. */
module Controller {
  import opened Wrappers
  import opened Sequences

  type Uuid = string

  /** `NoIdError` and `RefsExistError` are the controller's "not found" and
      "already exists / still referenced" conditions; a write naming a
      referenced object the controller does not hold is "not found" too.
      `Crash` is an exception raised by the client's own code when it looks
      up an attribute or an index of a value that a failed read or an absent
      back-ref list left missing, or indexes past the end of a name. */
  datatype Error = NoIdError | RefsExistError | Crash

  /** The `id_perms` structure; only its `creator` field matters here. */
  datatype IdPerms = IdPerms(creator: Option<string>)

  /** A port group's reference to a physical interface; `to` is the
      interface's fully qualified name: global config, switch, port. */
  datatype PiRef = PiRef(uuid: Uuid, to: seq<string>)

  datatype VirtualNetwork = VirtualNetwork(
    uuid: Uuid,
    fqName: seq<string>,
    idPerms: Option<IdPerms>,
    vmiBackRefs: seq<Uuid>)

  datatype VirtualPortGroup = VirtualPortGroup(
    uuid: Uuid,
    fqName: seq<string>,
    idPerms: Option<IdPerms>,
    piRefs: seq<PiRef>,
    vmiRefs: set<Uuid>)

  datatype VmiProperties = VmiProperties(subInterfaceVlanTag: Option<int>)

  /** One entry of a binding profile's `local_link_information`. */
  datatype LocalLink = LocalLink(portId: string, switchId: string, fabric: string, switchInfo: string)

  /** A binding value: plain text, or the structured `profile` document. */
  datatype BindingValue = Text(text: string) | Profile(localLinkInformation: seq<LocalLink>)

  datatype KeyValuePair = KeyValuePair(key: string, value: BindingValue)

  datatype VirtualMachineInterface = VirtualMachineInterface(
    uuid: Uuid,
    fqName: seq<string>,
    idPerms: Option<IdPerms>,
    vnRefs: seq<Uuid>,
    properties: Option<VmiProperties>,
    bindings: Option<seq<KeyValuePair>>,
    vpgBackRefs: seq<Uuid>)

  datatype PhysicalInterface = PhysicalInterface(uuid: Uuid, fqName: seq<string>)

  datatype Kind = VirtualNetworkKind | VirtualPortGroupKind | VirtualMachineInterfaceKind

  /** A write the controller applied; the store keeps them in order, so a
      caller can tell an operation that issued no write from one that rewrote
      an object with its old value. */
  datatype Write = Created(kind: Kind, id: Uuid) | Updated(kind: Kind, id: Uuid) | Deleted(kind: Kind, id: Uuid)

  datatype Objects = Objects(
    vns: map<Uuid, VirtualNetwork>,
    vpgs: map<Uuid, VirtualPortGroup>,
    vmis: map<Uuid, VirtualMachineInterface>,
    pis: map<Uuid, PhysicalInterface>,
    writes: seq<Write>)

  /** Every object is stored under its own uuid. */
  predicate Keyed(o: Objects) {
    && (forall u :: u in o.vns ==> o.vns[u].uuid == u)
    && (forall u :: u in o.vpgs ==> o.vpgs[u].uuid == u)
    && (forall u :: u in o.vmis ==> o.vmis[u].uuid == u)
    && (forall u :: u in o.pis ==> o.pis[u].uuid == u)
  }

  type Store = o: Objects | Keyed(o) witness Objects(map[], map[], map[], map[], [])

  /** The last component of a fully qualified name: the object's `name`. */
  function Name(fqName: seq<string>): string {
    if |fqName| == 0 then "" else fqName[|fqName| - 1]
  }

  function VnNames(s: Store): set<seq<string>> {
    set u | u in s.vns :: s.vns[u].fqName
  }

  function VpgNames(s: Store): set<seq<string>> {
    set u | u in s.vpgs :: s.vpgs[u].fqName
  }

  function VmiNames(s: Store): set<seq<string>> {
    set u | u in s.vmis :: s.vmis[u].fqName
  }

  /** The controller's bookkeeping after port group `g`'s VMI refs changed
      from `before` to `after`: VMIs that gained the ref get `g` appended to
      their back-refs, VMIs that lost it get `g` removed, the rest stay. */
  function Relink(vmis: map<Uuid, VirtualMachineInterface>, g: Uuid, before: set<Uuid>, after: set<Uuid>)
    : (r: map<Uuid, VirtualMachineInterface>)
    ensures r.Keys == vmis.Keys
    ensures forall u :: u in r ==> r[u] == vmis[u].(vpgBackRefs := r[u].vpgBackRefs)
    ensures forall u :: u in r && u in before && u !in after ==> r[u].vpgBackRefs == Without(vmis[u].vpgBackRefs, g)
    ensures forall u :: u in r && u in after && u !in before ==> r[u].vpgBackRefs == vmis[u].vpgBackRefs + [g]
    ensures forall u :: u in r && (u in before <==> u in after) ==> r[u] == vmis[u]
  {
    map u | u in vmis ::
      if u in after && u !in before then vmis[u].(vpgBackRefs := vmis[u].vpgBackRefs + [g])
      else if u in before && u !in after then vmis[u].(vpgBackRefs := Without(vmis[u].vpgBackRefs, g))
      else vmis[u]
  }

  /** Every VMI ref that `after` adds to the held refs `before` names a VMI
      the controller holds. */
  predicate VmiRefsHeld(s: Store, before: set<Uuid>, after: set<Uuid>) {
    forall u :: u in after && u !in before ==> u in s.vmis
  }

  /** Every network a VMI refers to is one the controller holds. */
  predicate VnRefsHeld(s: Store, refs: seq<Uuid>) {
    forall n :: n in refs ==> n in s.vns
  }

  // ---- virtual networks ----

  function VnCreate(s: Store, vn: VirtualNetwork): (r: Result<Store, Error>)
    ensures r.Failure? <==> vn.uuid in s.vns || vn.fqName in VnNames(s)
    ensures r.Failure? ==> r.error == RefsExistError
    ensures r.Success? ==> r.value.vns == s.vns[vn.uuid := vn.(vmiBackRefs := [])]
    ensures r.Success? ==> r.value == s.(vns := r.value.vns, writes := s.writes + [Created(VirtualNetworkKind, vn.uuid)])
  {
    if vn.uuid in s.vns || vn.fqName in VnNames(s) then Failure(RefsExistError)
    else Success(s.(vns := s.vns[vn.uuid := vn.(vmiBackRefs := [])],
                    writes := s.writes + [Created(VirtualNetworkKind, vn.uuid)]))
  }

  function VnDelete(s: Store, u: Uuid): (r: Result<Store, Error>)
    ensures u !in s.vns ==> r == Failure(NoIdError)
    ensures u in s.vns && |s.vns[u].vmiBackRefs| > 0 ==> r == Failure(RefsExistError)
    ensures r.Success? ==> r.value == s.(vns := s.vns - {u}, writes := s.writes + [Deleted(VirtualNetworkKind, u)])
  {
    if u !in s.vns then Failure(NoIdError)
    else if |s.vns[u].vmiBackRefs| > 0 then Failure(RefsExistError)
    else Success(s.(vns := s.vns - {u}, writes := s.writes + [Deleted(VirtualNetworkKind, u)]))
  }

  // ---- virtual port groups ----

  function VpgCreate(s: Store, vpg: VirtualPortGroup): (r: Result<Store, Error>)
    ensures r.Failure? <==> vpg.uuid in s.vpgs || vpg.fqName in VpgNames(s) || !VmiRefsHeld(s, {}, vpg.vmiRefs)
    ensures vpg.uuid in s.vpgs || vpg.fqName in VpgNames(s) ==> r == Failure(RefsExistError)
    ensures r.Failure? && r.error != RefsExistError ==> r.error == NoIdError
    ensures r.Success? ==> vpg.uuid in r.value.vpgs && r.value.vpgs[vpg.uuid] == vpg
    ensures r.Success? ==>
      && r.value.vpgs == s.vpgs[vpg.uuid := vpg]
      && r.value.vmis == Relink(s.vmis, vpg.uuid, {}, vpg.vmiRefs)
      && r.value.vns == s.vns && r.value.pis == s.pis
    ensures r.Success? ==> r.value.writes == s.writes + [Created(VirtualPortGroupKind, vpg.uuid)]
  {
    if vpg.uuid in s.vpgs || vpg.fqName in VpgNames(s) then Failure(RefsExistError)
    else if !VmiRefsHeld(s, {}, vpg.vmiRefs) then Failure(NoIdError)
    else Success(s.(vpgs := s.vpgs[vpg.uuid := vpg],
                    vmis := Relink(s.vmis, vpg.uuid, {}, vpg.vmiRefs),
                    writes := s.writes + [Created(VirtualPortGroupKind, vpg.uuid)]))
  }

  /** Pushes the in-memory port group's reference lists. The controller
      refuses a VMI ref it cannot resolve; the refs it already held resolve
      by its referential integrity, so only the added ones are looked up. */
  function VpgUpdate(s: Store, vpg: VirtualPortGroup): (r: Result<Store, Error>)
    ensures r.Failure? <==> vpg.uuid !in s.vpgs || !VmiRefsHeld(s, s.vpgs[vpg.uuid].vmiRefs, vpg.vmiRefs)
    ensures r.Failure? ==> r.error == NoIdError
    ensures r.Success? ==>
      && r.value.vpgs == s.vpgs[vpg.uuid := s.vpgs[vpg.uuid].(piRefs := vpg.piRefs, vmiRefs := vpg.vmiRefs)]
      && r.value.vmis == Relink(s.vmis, vpg.uuid, s.vpgs[vpg.uuid].vmiRefs, vpg.vmiRefs)
      && r.value.vns == s.vns && r.value.pis == s.pis
      && r.value.writes == s.writes + [Updated(VirtualPortGroupKind, vpg.uuid)]
  {
    if vpg.uuid !in s.vpgs || !VmiRefsHeld(s, s.vpgs[vpg.uuid].vmiRefs, vpg.vmiRefs) then Failure(NoIdError)
    else
      var stored := s.vpgs[vpg.uuid];
      Success(s.(vpgs := s.vpgs[vpg.uuid := stored.(piRefs := vpg.piRefs, vmiRefs := vpg.vmiRefs)],
                 vmis := Relink(s.vmis, vpg.uuid, stored.vmiRefs, vpg.vmiRefs),
                 writes := s.writes + [Updated(VirtualPortGroupKind, vpg.uuid)]))
  }

  function VpgDelete(s: Store, g: Uuid): (r: Result<Store, Error>)
    ensures g !in s.vpgs <==> r.Failure?
    ensures r.Failure? ==> r.error == NoIdError
    ensures r.Success? ==>
      && r.value.vpgs == s.vpgs - {g}
      && r.value.vmis == Relink(s.vmis, g, s.vpgs[g].vmiRefs, {})
      && r.value.vns == s.vns && r.value.pis == s.pis
      && r.value.writes == s.writes + [Deleted(VirtualPortGroupKind, g)]
  {
    if g !in s.vpgs then Failure(NoIdError)
    else Success(s.(vpgs := s.vpgs - {g},
                    vmis := Relink(s.vmis, g, s.vpgs[g].vmiRefs, {}),
                    writes := s.writes + [Deleted(VirtualPortGroupKind, g)]))
  }

  // ---- virtual machine interfaces ----

  function VmiCreate(s: Store, vmi: VirtualMachineInterface): (r: Result<Store, Error>)
    ensures r.Failure? <==> vmi.uuid in s.vmis || vmi.fqName in VmiNames(s) || !VnRefsHeld(s, vmi.vnRefs)
    ensures vmi.uuid in s.vmis || vmi.fqName in VmiNames(s) ==> r == Failure(RefsExistError)
    ensures r.Failure? && r.error != RefsExistError ==> r.error == NoIdError
    ensures r.Success? ==>
      && r.value.vmis == s.vmis[vmi.uuid := vmi.(vpgBackRefs := [])]
      && r.value.vns.Keys == s.vns.Keys
      && (forall n :: n in s.vns ==> r.value.vns[n] == s.vns[n].(vmiBackRefs := r.value.vns[n].vmiBackRefs))
      && (forall n :: n in s.vns && n in vmi.vnRefs ==> r.value.vns[n].vmiBackRefs == s.vns[n].vmiBackRefs + [vmi.uuid])
      && (forall n :: n in s.vns && n !in vmi.vnRefs ==> r.value.vns[n] == s.vns[n])
      && r.value.vpgs == s.vpgs && r.value.pis == s.pis
      && r.value.writes == s.writes + [Created(VirtualMachineInterfaceKind, vmi.uuid)]
  {
    if vmi.uuid in s.vmis || vmi.fqName in VmiNames(s) then Failure(RefsExistError)
    else if !VnRefsHeld(s, vmi.vnRefs) then Failure(NoIdError)
    else
      var vns := map n | n in s.vns ::
        if n in vmi.vnRefs then s.vns[n].(vmiBackRefs := s.vns[n].vmiBackRefs + [vmi.uuid]) else s.vns[n];
      Success(s.(vns := vns,
                 vmis := s.vmis[vmi.uuid := vmi.(vpgBackRefs := [])],
                 writes := s.writes + [Created(VirtualMachineInterfaceKind, vmi.uuid)]))
  }

  /** Pushes the in-memory VMI's bindings, the only field the client changes
      before an update. */
  function VmiUpdate(s: Store, vmi: VirtualMachineInterface): (r: Result<Store, Error>)
    ensures vmi.uuid !in s.vmis <==> r.Failure?
    ensures r.Failure? ==> r.error == NoIdError
    ensures r.Success? ==>
      r.value == s.(vmis := s.vmis[vmi.uuid := s.vmis[vmi.uuid].(bindings := vmi.bindings)],
                    writes := s.writes + [Updated(VirtualMachineInterfaceKind, vmi.uuid)])
  {
    if vmi.uuid !in s.vmis then Failure(NoIdError)
    else Success(s.(vmis := s.vmis[vmi.uuid := s.vmis[vmi.uuid].(bindings := vmi.bindings)],
                    writes := s.writes + [Updated(VirtualMachineInterfaceKind, vmi.uuid)]))
  }

  function VmiDelete(s: Store, u: Uuid): (r: Result<Store, Error>)
    ensures u !in s.vmis ==> r == Failure(NoIdError)
    ensures u in s.vmis && |s.vmis[u].vpgBackRefs| > 0 ==> r == Failure(RefsExistError)
    ensures r.Success? ==>
      && u in s.vmis
      && r.value.vmis == s.vmis - {u}
      && r.value.vns.Keys == s.vns.Keys
      && (forall n :: n in s.vns ==> r.value.vns[n] == s.vns[n].(vmiBackRefs := r.value.vns[n].vmiBackRefs))
      && (forall n :: n in s.vns && n in s.vmis[u].vnRefs ==> r.value.vns[n].vmiBackRefs == Without(s.vns[n].vmiBackRefs, u))
      && (forall n :: n in s.vns && n !in s.vmis[u].vnRefs ==> r.value.vns[n] == s.vns[n])
      && r.value.vpgs == s.vpgs && r.value.pis == s.pis
      && r.value.writes == s.writes + [Deleted(VirtualMachineInterfaceKind, u)]
  {
    if u !in s.vmis then Failure(NoIdError)
    else if |s.vmis[u].vpgBackRefs| > 0 then Failure(RefsExistError)
    else
      var refs := s.vmis[u].vnRefs;
      var vns := map n | n in s.vns ::
        if n in refs then s.vns[n].(vmiBackRefs := Without(s.vns[n].vmiBackRefs, u)) else s.vns[n];
      Success(s.(vns := vns, vmis := s.vmis - {u},
                 writes := s.writes + [Deleted(VirtualMachineInterfaceKind, u)]))
  }
}

=== FILE: dvs.dfy ===
/** The start-up step of the distributed virtual switch service: every port
    the controller knows whose ESXi port information carries a non-empty
    `dvs_name` has that name recorded as supported; other ports are skipped.
    The controller
    read is replaced by the list of ports it returns, and the database by the
    sequence of names handed to it, in order. */
module DvsService {
  import opened Wrappers

  /** The `esxi_port_info` property of a port: absent, or a dictionary whose
      `dvs_name` entry may be absent, `None`, or a string. */
  type EsxiPortInfo = map<string, Option<string>>

  datatype Port = Port(esxiPortInfo: Option<EsxiPortInfo>)

  /** The name a port contributes, if any: the port must carry non-empty
      ESXi information whose `dvs_name` is a non-empty string. */
  function SupportedDvsName(port: Port): (n: Option<string>)
    ensures n.Some? ==> n.value != ""
    ensures port.esxiPortInfo.None? || port.esxiPortInfo.value == map[] ==> n.None?
    ensures n.Some? <==> port.esxiPortInfo.Some? && "dvs_name" in port.esxiPortInfo.value
                         && port.esxiPortInfo.value["dvs_name"] != None
                         && port.esxiPortInfo.value["dvs_name"] != Some("")
    ensures n.Some? ==> port.esxiPortInfo.value["dvs_name"] == n
  {
    match port.esxiPortInfo
    case None => None
    case Some(info) =>
      if info == map[] then None
      else if "dvs_name" !in info then None
      else match info["dvs_name"]
        case None => None
        case Some(name) => if name == "" then None else Some(name)
  }

  /** Reference definition: the names the ports contribute, in port order. */
  function Names(ports: seq<Port>): (ns: seq<string>)
    ensures |ns| <= |ports|
    ensures forall k :: 0 <= k < |ns| ==> ns[k] != ""
  {
    if |ports| == 0 then []
    else
      var rest := Names(ports[1..]);
      match SupportedDvsName(ports[0])
      case None => rest
      case Some(n) => [n] + rest
  }

  /** `populate_db_with_supported_dvses`: walks the ports in order, skipping
      those without information and those without a usable name, and adds
      every other name to the database. */
  method PopulateDbWithSupportedDvses(db: seq<string>, ports: seq<Port>) returns (r: seq<string>)
    ensures r == db + Names(ports)
    ensures |db| <= |r| && r[..|db|] == db
    ensures forall k :: |db| <= k < |r| ==> exists i :: 0 <= i < |ports| && SupportedDvsName(ports[i]) == Some(r[k])
  {
    r := db;
    var i := 0;
    while i < |ports|
      invariant 0 <= i <= |ports|
      invariant r == db + Names(ports[..i])
    {
      NamesAppend(ports[..i], [ports[i]]);
      assert ports[..i + 1] == ports[..i] + [ports[i]];
      var info := ports[i].esxiPortInfo;
      if info.None? || info.value == map[] {
        i := i + 1;
        continue;
      }
      if "dvs_name" in info.value && info.value["dvs_name"].Some? && info.value["dvs_name"].value != "" {
        r := r + [info.value["dvs_name"].value];
      }
      i := i + 1;
    }
    assert ports[..i] == ports;
    NamesFromPorts(ports);
    assert r[|db|..] == Names(ports);
    forall k | |db| <= k < |r| ensures exists j :: 0 <= j < |ports| && SupportedDvsName(ports[j]) == Some(r[k]) {
      assert r[k] == Names(ports)[k - |db|];
    }
  }

  // ---- properties ----

  /** The walk is a left fold: the names of a concatenation are the names
      of its parts. */
  lemma {:induction false} NamesAppend(a: seq<Port>, b: seq<Port>)
    ensures Names(a + b) == Names(a) + Names(b)
    decreases |a|
  {
    if |a| == 0 {
      assert a + b == b;
    } else {
      assert (a + b)[0] == a[0];
      assert (a + b)[1..] == a[1..] + b;
      NamesAppend(a[1..], b);
    }
  }

  /** One port contributes exactly its own name, once, or nothing. */
  lemma NamesSingle(p: Port)
    ensures Names([p]) == (if SupportedDvsName(p).Some? then [SupportedDvsName(p).value] else [])
  {
    assert [p][1..] == [];
  }

  /** A port without usable information leaves the result as it would be
      without that port. */
  lemma PortWithoutNameIgnored(before: seq<Port>, p: Port, after: seq<Port>)
    requires SupportedDvsName(p).None?
    ensures Names(before + [p] + after) == Names(before + after)
  {
    NamesAppend(before + [p], after);
    NamesAppend(before, [p]);
    NamesAppend(before, after);
    NamesSingle(p);
    assert Names(before) + [] == Names(before);
  }

  /** Every name is the `dvs_name` of some port. */
  lemma {:induction false} NamesFromPorts(ports: seq<Port>)
    ensures forall k :: 0 <= k < |Names(ports)| ==>
      exists i :: 0 <= i < |ports| && SupportedDvsName(ports[i]) == Some(Names(ports)[k])
  {
    if |ports| > 0 {
      NamesFromPorts(ports[1..]);
      var ns := Names(ports);
      var rest := Names(ports[1..]);
      assert ns == (if SupportedDvsName(ports[0]).Some? then [SupportedDvsName(ports[0]).value] + rest else rest);
      forall k | 0 <= k < |ns| ensures exists i :: 0 <= i < |ports| && SupportedDvsName(ports[i]) == Some(ns[k]) {
        if SupportedDvsName(ports[0]).Some? && k == 0 {
          assert SupportedDvsName(ports[0]) == Some(ns[k]);
        } else {
          var k' := if SupportedDvsName(ports[0]).Some? then k - 1 else k;
          assert ns[k] == rest[k'];
          var i :| 0 <= i < |ports[1..]| && SupportedDvsName(ports[1..][i]) == Some(rest[k']);
          assert ports[1..][i] == ports[i + 1];
          assert SupportedDvsName(ports[i + 1]) == Some(ns[k]);
        }
      }
    } else {
      assert Names(ports) == [];
    }
  }

  /** Every port that has a usable name contributes it: the `k`-th such
      port's name is the `k`-th name. */
  lemma {:induction false} EveryNamedPortCounted(ports: seq<Port>, i: nat)
    requires i < |ports| && SupportedDvsName(ports[i]).Some?
    ensures |Names(ports[..i])| < |Names(ports)|
    ensures Names(ports)[|Names(ports[..i])|] == SupportedDvsName(ports[i]).value
  {
    assert ports == ports[..i] + [ports[i]] + ports[i + 1..];
    NamesAppend(ports[..i] + [ports[i]], ports[i + 1..]);
    NamesAppend(ports[..i], [ports[i]]);
    NamesSingle(ports[i]);
  }
}

=== FILE: maps.dfy ===
/** Facts about finite maps that the store proofs use: updates and
    removals at one key, and agreement everywhere else. */
module Maps {

  /** A map that has the same keys as `m`, less `k` when `dropped`, and the
      same values off `k` keeps every other entry of `m`. */
  lemma KeptOutside<K, V>(m: map<K, V>, r: map<K, V>, k: K, dropped: bool)
    requires r.Keys == (if dropped then m.Keys - {k} else m.Keys)
    requires forall h :: h in r && h != k ==> r[h] == m[h]
    ensures forall h :: h in m && h != k ==> h in r && r[h] == m[h]
  {
    forall h | h in m && h != k ensures h in r {
      assert h in r.Keys;
    }
  }

  /** A map that agrees with `n` off `k` and holds `v` at `k` is `n` updated at `k`. */
  lemma PutAgrees<K, V>(m: map<K, V>, n: map<K, V>, k: K, v: V)
    requires m.Keys == n.Keys && k in m && m[k] == v
    requires forall x :: x in m && x != k ==> m[x] == n[x]
    ensures m == n[k := v]
  {
  }

  /** Maps that agree off `k` agree once `k` is removed. */
  lemma RemoveAgrees<K, V>(m: map<K, V>, n: map<K, V>, k: K)
    requires m.Keys == n.Keys
    requires forall x :: x in m && x != k ==> m[x] == n[x]
    ensures m - {k} == n - {k}
  {
  }

  /** The second update of a key wins. */
  lemma PutTwice<K, V>(m: map<K, V>, k: K, v: V, w: V)
    ensures m[k := v][k := w] == m[k := w]
  {
  }

  /** Removing a key before updating it makes no difference. */
  lemma RemoveThenPut<K, V>(m: map<K, V>, k: K, v: V)
    ensures (m - {k})[k := v] == m[k := v]
  {
  }
}

=== FILE: requirements.dfy ===
/** The `requirements` helper of `setup.py`: every line of the requirements
    file loses its comment (the regular expression `\s*#.*` replaced by
    nothing) and its surrounding whitespace, and lines that end up empty are
    dropped. The file read and `splitlines` are not modelled; the transform
    takes the list of lines. */
module Requirements {
  import opened Sequences

  // ---- Python's notion of whitespace ----

  /** `str.isspace` on one character, which is also what `\s` matches in a
      `str` pattern and what `str.strip()` removes. */
  predicate IsSpace(c: char) {
    || ('\t' <= c <= '\r')
    || ('\U{1c}' <= c <= '\U{1f}')
    || c == ' '
    || c == '\U{85}'
    || c == '\U{a0}'
    || c == '\U{1680}'
    || ('\U{2000}' <= c <= '\U{200a}')
    || c == '\U{2028}'
    || c == '\U{2029}'
    || c == '\U{202f}'
    || c == '\U{205f}'
    || c == '\U{3000}'
  }

  predicate AllSpace(s: string) {
    forall k :: 0 <= k < |s| ==> IsSpace(s[k])
  }

  /** Neither end of the string is whitespace. */
  predicate Stripped(s: string) {
    |s| == 0 || (!IsSpace(s[0]) && !IsSpace(s[|s| - 1]))
  }

  /** Where the text of `s[..j]` ends: trailing whitespace before `j` is
      skipped. */
  function TextEnd(s: string, j: nat): (e: nat)
    requires j <= |s|
    ensures e <= j
    ensures forall k :: e <= k < j ==> IsSpace(s[k])
    ensures e > 0 ==> !IsSpace(s[e - 1])
  {
    if j > 0 && IsSpace(s[j - 1]) then TextEnd(s, j - 1) else j
  }

  /** Where the text of `s[i..e]` starts: leading whitespace from `i` is
      skipped. */
  function TextStart(s: string, i: nat, e: nat): (b: nat)
    requires i <= e <= |s|
    ensures i <= b <= e
    ensures forall k :: i <= k < b ==> IsSpace(s[k])
    ensures b < e ==> !IsSpace(s[b])
    decreases e - i
  {
    if i < e && IsSpace(s[i]) then TextStart(s, i + 1, e) else i
  }

  /** `str.strip()`: the slice of `s` without its leading and trailing
      whitespace. */
  function Strip(s: string): (r: string)
    ensures Stripped(r)
    ensures exists b, e ::
              && 0 <= b <= e <= |s|
              && r == s[b..e]
              && (forall k :: 0 <= k < b ==> IsSpace(s[k]))
              && (forall k :: e <= k < |s| ==> IsSpace(s[k]))
  {
    var e := TextEnd(s, |s|);
    var b := TextStart(s, 0, e);
    s[b..e]
  }

  // ---- the pattern `\s*#.*` ----

  /** `\s*#` matches at `i`: whitespace up to a `#`. Backtracking inside
      `\s*` cannot help, because a shorter run is followed by whitespace,
      not by `#`. */
  predicate MatchesAt(s: string, i: nat)
    requires i <= |s|
    decreases |s| - i
  {
    i < |s| && (s[i] == '#' || (IsSpace(s[i]) && MatchesAt(s, i + 1)))
  }

  /** The `#` a match at `i` reaches. */
  function HashOf(s: string, i: nat): (h: nat)
    requires i <= |s| && MatchesAt(s, i)
    ensures i <= h < |s| && s[h] == '#'
    ensures forall k :: i <= k < h ==> IsSpace(s[k])
    decreases |s| - i
  {
    if s[i] == '#' then i else HashOf(s, i + 1)
  }

  /** Where `.*` stops: at the next `\n`, or at the end. */
  function LineEnd(s: string, i: nat): (e: nat)
    requires i <= |s|
    ensures i <= e <= |s|
    ensures e < |s| ==> s[e] == '\n'
    ensures forall k :: i <= k < e ==> s[k] != '\n'
    decreases |s| - i
  {
    if i == |s| || s[i] == '\n' then i else LineEnd(s, i + 1)
  }

  /** The leftmost position at or after `i` where the pattern matches, or
      `|s|` when there is none. */
  function MatchStart(s: string, i: nat): (m: nat)
    requires i <= |s|
    ensures i <= m <= |s|
    ensures m < |s| ==> MatchesAt(s, m)
    ensures forall k :: i <= k < m ==> !MatchesAt(s, k)
    decreases |s| - i
  {
    if i == |s| || MatchesAt(s, i) then i else MatchStart(s, i + 1)
  }

  /** A `#` is always the start of a match. */
  lemma HashMatches(s: string, k: int)
    ensures 0 <= k < |s| && s[k] == '#' ==> MatchesAt(s, k)
  {
  }

  /** `c.sub("", s)`: every leftmost, non-overlapping match removed. */
  function Sub(s: string): (r: string)
    ensures '#' !in r
    ensures forall c :: c in r ==> c in s
    decreases |s|
  {
    var m := MatchStart(s, 0);
    if m == |s| then
      assert '#' !in s by {
        forall k | 0 <= k < |s| ensures s[k] != '#' {
          HashMatches(s, k);
        }
      }
      s
    else
      var e := LineEnd(s, HashOf(s, m) + 1);
      var rest := Sub(s[e..]);
      assert '#' !in s[..m] by {
        forall k | 0 <= k < m ensures s[..m][k] != '#' {
          HashMatches(s, k);
        }
      }
      s[..m] + rest
  }

  /** The cleaning `lambda` of `requirements`, applied to one line. */
  function CleanLine(line: string): (r: string)
    ensures '#' !in r
    ensures Stripped(r)
  {
    Strip(Sub(line))
  }

  // ---- the whole transform ----

  /** `filter(bool, ...)` on strings: the non-empty ones, in order. */
  function DropEmpty(xs: seq<string>): (r: seq<string>)
    ensures |r| <= |xs|
    ensures forall x :: x in r <==> x in xs && x != ""
    ensures forall x :: multiset(r)[x] == if x == "" then 0 else multiset(xs)[x]
    ensures Subsequence(r, xs)
  {
    if |xs| == 0 then []
    else
      var rest := DropEmpty(xs[1..]);
      assert xs == [xs[0]] + xs[1..];
      if xs[0] == "" then rest
      else
        var r := [xs[0]] + rest;
        assert r[0] == xs[0] && r[1..] == rest;
        r
  }

  /** Every line cleaned, empty results kept: `map(clean, lines)`. */
  function CleanAll(lines: seq<string>): (cs: seq<string>)
    ensures |cs| == |lines|
    ensures forall x :: x in cs ==> '#' !in x && Stripped(x)
  {
    if |lines| == 0 then []
    else
      var cs := [CleanLine(lines[0])] + CleanAll(lines[1..]);
      assert forall x :: x in cs ==> x == cs[0] || x in cs[1..];
      cs
  }

  /** The `j`-th cleaned line is the cleaning of the `j`-th line. */
  lemma {:induction false} CleanAllAt(lines: seq<string>, j: nat)
    requires j < |lines|
    ensures CleanAll(lines)[j] == CleanLine(lines[j])
    decreases j
  {
    if j > 0 {
      CleanAllAt(lines[1..], j - 1);
    }
  }

  /** `list(filter(bool, map(clean, lines)))`. */
  function CleanLines(lines: seq<string>): (r: seq<string>)
    ensures |r| <= |lines|
    ensures forall k :: 0 <= k < |r| ==> r[k] != "" && '#' !in r[k] && Stripped(r[k])
    ensures forall x :: x in r <==> x in CleanAll(lines) && x != ""
    ensures forall x :: multiset(r)[x] == if x == "" then 0 else multiset(CleanAll(lines))[x]
    ensures Subsequence(r, CleanAll(lines))
  {
    var r := DropEmpty(CleanAll(lines));
    assert forall k :: 0 <= k < |r| ==> r[k] in CleanAll(lines) by {
      forall k | 0 <= k < |r| ensures r[k] in CleanAll(lines) {
        assert r[k] in r;
      }
    }
    r
  }

  // ---- properties ----

  /** The index of the first `#`, or the length when there is none. */
  function FirstHash(s: string): (p: nat)
    ensures p <= |s|
    ensures forall k :: 0 <= k < p ==> s[k] != '#'
    ensures p < |s| ==> s[p] == '#'
  {
    if |s| == 0 then 0
    else if s[0] == '#' then 0
    else 1 + FirstHash(s[1..])
  }

  /** Whitespace after `j` does not move the end of the text. */
  lemma {:induction false} TextEndPastSpace(s: string, j: nat, j2: nat)
    requires j <= j2 <= |s|
    requires forall k :: j <= k < j2 ==> IsSpace(s[k])
    ensures TextEnd(s, j2) == TextEnd(s, j)
    decreases j2
  {
    if j < j2 {
      TextEndPastSpace(s, j, j2 - 1);
    }
  }

  /** The end of the text before `j` depends on `s[..j]` only. */
  lemma {:induction false} TextEndOfPrefix(s: string, t: string, j: nat)
    requires j <= |s| && j <= |t|
    requires forall k :: 0 <= k < j ==> s[k] == t[k]
    ensures TextEnd(s, j) == TextEnd(t, j)
    decreases j
  {
    if j > 0 {
      TextEndOfPrefix(s, t, j - 1);
    }
  }

  /** The start of the text in `s[i..e]` depends on `s[..e]` only. */
  lemma {:induction false} TextStartOfPrefix(s: string, t: string, i: nat, e: nat)
    requires i <= e <= |s| && e <= |t|
    requires forall k :: 0 <= k < e ==> s[k] == t[k]
    ensures TextStart(s, i, e) == TextStart(t, i, e)
    decreases e - i
  {
    if i < e {
      TextStartOfPrefix(s, t, i + 1, e);
    }
  }

  /** Trailing whitespace does not change the stripped result. */
  lemma StripIgnoresTrailingSpace(a: string, w: string)
    requires AllSpace(w)
    ensures Strip(a + w) == Strip(a)
  {
    var s := a + w;
    forall k | |a| <= k < |s| ensures IsSpace(s[k]) {
      assert s[k] == w[k - |a|];
    }
    TextEndPastSpace(s, |a|, |s|);
    TextEndOfPrefix(s, a, |a|);
    var e := TextEnd(a, |a|);
    TextStartOfPrefix(s, a, 0, e);
    var b := TextStart(a, 0, e);
    SliceOfPrefix(s, a, b, e);
  }

  lemma SliceOfPrefix(s: string, t: string, b: nat, e: nat)
    requires b <= e <= |s| && e <= |t|
    requires forall k :: 0 <= k < e ==> s[k] == t[k]
    ensures s[b..e] == t[b..e]
  {
  }

  /** On a line without `\n`, which is every line `splitlines` yields, the
      substitution cuts the line at its first `#`: the leftmost match starts
      at the whitespace before that `#` and `.*` runs to the end. */
  lemma {:induction false} SubCutsAtFirstHash(line: string)
    requires '\n' !in line
    ensures Strip(Sub(line)) == Strip(line[..FirstHash(line)])
  {
    var p := FirstHash(line);
    var m := MatchStart(line, 0);
    HashMatches(line, p);
    if m == |line| {
      assert line[..p] == line;
    } else {
      var h := HashOf(line, m);
      assert h == p;
      var e := LineEnd(line, h + 1);
      assert e == |line|;
      assert Sub(line) == line[..m] + Sub(line[e..]);
      assert line[e..] == [];
      assert Sub(line[e..]) == [];
      assert line[..p] == line[..m] + line[m..p];
      StripIgnoresTrailingSpace(line[..m], line[m..p]);
      assert line[..m] + [] == line[..m];
    }
  }

  /** Each output is the stripped part before the first `#` of some line. */
  lemma OutputsAreCutLines(lines: seq<string>)
    requires forall j :: 0 <= j < |lines| ==> '\n' !in lines[j]
    ensures forall k :: 0 <= k < |CleanLines(lines)| ==>
      exists j :: 0 <= j < |lines| && CleanLines(lines)[k] == Strip(lines[j][..FirstHash(lines[j])])
  {
    var r := CleanLines(lines);
    forall k | 0 <= k < |r| ensures exists j :: 0 <= j < |lines| && r[k] == Strip(lines[j][..FirstHash(lines[j])]) {
      assert r[k] in r;
      var j :| 0 <= j < |lines| && CleanAll(lines)[j] == r[k];
      CleanAllAt(lines, j);
      SubCutsAtFirstHash(lines[j]);
    }
  }

  lemma {:induction false} DropEmptyAppend(x: seq<string>, y: seq<string>)
    ensures DropEmpty(x + y) == DropEmpty(x) + DropEmpty(y)
    decreases |x|
  {
    if |x| == 0 {
      assert x + y == y;
    } else {
      assert (x + y)[0] == x[0];
      assert (x + y)[1..] == x[1..] + y;
      DropEmptyAppend(x[1..], y);
    }
  }

  /** The transform works line by line: cleaning a concatenation is
      concatenating the cleanings. */
  lemma {:induction false} CleanAllAppend(a: seq<string>, b: seq<string>)
    ensures CleanAll(a + b) == CleanAll(a) + CleanAll(b)
    decreases |a|
  {
    if |a| == 0 {
      assert a + b == b;
    } else {
      assert (a + b)[0] == a[0];
      assert (a + b)[1..] == a[1..] + b;
      CleanAllAppend(a[1..], b);
    }
  }

  lemma CleanLinesAppend(a: seq<string>, b: seq<string>)
    ensures CleanLines(a + b) == CleanLines(a) + CleanLines(b)
  {
    CleanAllAppend(a, b);
    DropEmptyAppend(CleanAll(a), CleanAll(b));
  }

  /** A blank line, or one holding only a comment, cleans to nothing. */
  lemma CommentOnlyLineCleansToEmpty(line: string)
    requires '\n' !in line
    requires AllSpace(line[..FirstHash(line)])
    ensures CleanLine(line) == ""
  {
    SubCutsAtFirstHash(line);
    var cut := line[..FirstHash(line)];
    StripIgnoresTrailingSpace([], cut);
    assert [] + cut == cut;
  }

  /** Such a line yields no output wherever it stands. */
  lemma CommentOnlyLineDropped(before: seq<string>, line: string, after: seq<string>)
    requires '\n' !in line
    requires AllSpace(line[..FirstHash(line)])
    ensures CleanLines(before + [line] + after) == CleanLines(before + after)
  {
    CommentOnlyLineCleansToEmpty(line);
    CleanLinesAppend(before + [line], after);
    CleanLinesAppend(before, [line]);
    CleanLinesAppend(before, after);
    assert CleanLines([line]) == [] by {
      assert [line][1..] == [];
    }
    assert CleanLines(before) + [] == CleanLines(before);
  }

  /** A string with no `#` and no surrounding whitespace is left alone. */
  lemma CleanLineFixes(s: string)
    requires '#' !in s && Stripped(s)
    ensures CleanLine(s) == s
  {
    MatchNeedsHash(s, MatchStart(s, 0));
  }

  /** A match always contains a `#`. */
  lemma MatchNeedsHash(s: string, i: int)
    ensures 0 <= i < |s| && MatchesAt(s, i) ==> '#' in s
  {
    if 0 <= i < |s| && MatchesAt(s, i) {
      var h := HashOf(s, i);
      assert s[h] in s;
    }
  }

  /** Applying the transform to its own output returns that output. */
  lemma {:induction false} CleanLinesIdempotent(lines: seq<string>)
    ensures CleanLines(CleanLines(lines)) == CleanLines(lines)
  {
    var r := CleanLines(lines);
    FixedLinesKept(r);
  }

  lemma {:induction false} NonEmptyKept(xs: seq<string>)
    requires forall k :: 0 <= k < |xs| ==> xs[k] != ""
    ensures DropEmpty(xs) == xs
    decreases |xs|
  {
    if |xs| > 0 {
      NonEmptyKept(xs[1..]);
      assert xs == [xs[0]] + xs[1..];
    }
  }

  lemma FixedLinesKept(r: seq<string>)
    requires forall k :: 0 <= k < |r| ==> r[k] != "" && '#' !in r[k] && Stripped(r[k])
    ensures CleanLines(r) == r
  {
    forall k | 0 <= k < |r| ensures CleanAll(r)[k] == r[k] {
      CleanAllAt(r, k);
      CleanLineFixes(r[k]);
    }
    assert CleanAll(r) == r;
    NonEmptyKept(r);
  }
}

=== FILE: sequences.dfy ===
/** Order-related notions on sequences, shared by every filter in the model. */
module Sequences {

  /** `a` is obtained from `b` by dropping elements and keeping the rest in order. */
  ghost predicate Subsequence<T>(a: seq<T>, b: seq<T>)
    decreases |b|
  {
    || |a| == 0
    || (&& |b| > 0
        && ((a[0] == b[0] && Subsequence(a[1..], b[1..])) || Subsequence(a, b[1..])))
  }

  lemma {:induction false} SubsequenceReflexive<T>(a: seq<T>)
    ensures Subsequence(a, a)
    decreases |a|
  {
    if |a| > 0 {
      SubsequenceReflexive(a[1..]);
    }
  }

  /** Dropping elements twice is dropping elements once. */
  lemma {:induction false} SubsequenceTransitive<T>(a: seq<T>, b: seq<T>, c: seq<T>)
    requires Subsequence(a, b) && Subsequence(b, c)
    ensures Subsequence(a, c)
    decreases |c|
  {
    if |a| > 0 {
      if a[0] == b[0] && Subsequence(a[1..], b[1..]) {
        if b[0] == c[0] && Subsequence(b[1..], c[1..]) {
          SubsequenceTransitive(a[1..], b[1..], c[1..]);
        } else {
          SubsequenceTransitive(a, b, c[1..]);
        }
      } else {
        if b[0] == c[0] && Subsequence(b[1..], c[1..]) {
          SubsequenceTransitive(a, b[1..], c[1..]);
        } else {
          SubsequenceTransitive(a, b, c[1..]);
        }
      }
    }
  }

  /** `xs` with every occurrence of `x` removed, the rest in order. */
  function Without<T(==,!new)>(xs: seq<T>, x: T): (r: seq<T>)
    ensures x !in r
    ensures forall y :: y in r <==> y in xs && y != x
    ensures |r| <= |xs|
    ensures x !in xs ==> r == xs
    ensures (forall y :: y in xs ==> y == x) ==> r == []
  {
    if |xs| == 0 then []
    else if xs[0] == x then Without(xs[1..], x)
    else
      assert xs[0] in xs;
      [xs[0]] + Without(xs[1..], x)
  }
}

=== FILE: vnc_client.dfy ===
/** The reconciliation client of `cvfm/clients/vnc.py`: ownership-scoped
    listing, idempotent create/read/update/delete, VMI detachment with port
    group clean-up, cascading VN deletion, batch physical-interface
    attachment, binding profiles and VLAN migration.

    Every method of the Python client becomes a function from the controller
    store (and the in-memory objects the method receives) to a `Result`: the
    new store, or the exception the method lets escape. The conditions the
    Python code absorbs ("already exists" on create, "not found" on
    update/delete) never appear as failures; a create the controller refuses
    for an unresolved reference is "not found", which a create lets escape. */
module VncClient {
  import opened Wrappers
  import opened Sequences
  import opened Controller

  /** The client's fixed configuration: the admin project's fully qualified
      name and the creator tag that marks objects made by this manager. */
  datatype Client = Client(projectFqName: seq<string>, creatorTag: string)

  /** One element of a `*_list` response, projected on `id_perms`. */
  datatype ListedObject = ListedObject(uuid: Uuid, fqName: seq<string>, idPerms: Option<IdPerms>)

  // ---- ownership filter ----

  /** An object is ours when it has `id_perms` and their creator is our tag. */
  function HasProperCreator(idPerms: Option<IdPerms>, tag: string): (r: bool)
    ensures r ==> idPerms.Some?
    ensures r <==> idPerms == Some(IdPerms(Some(tag)))
  {
    match idPerms
    case None => false
    case Some(perms) => perms.creator == Some(tag)
  }

  /** `read_all_vns`, `read_all_vpgs` and `read_all_vmis`: the listed objects
      that are ours, in listing order, each as often as it was listed. */
  function ReadAllOwned(listing: seq<ListedObject>, tag: string): (r: seq<ListedObject>)
    ensures Subsequence(r, listing)
    ensures forall o :: multiset(r)[o] == if HasProperCreator(o.idPerms, tag) then multiset(listing)[o] else 0
    ensures forall o :: o in r ==> o.idPerms.Some? && o.idPerms.value.creator == Some(tag)
    ensures forall o :: o in listing && HasProperCreator(o.idPerms, tag) ==> o in r
  {
    if |listing| == 0 then []
    else
      var rest := ReadAllOwned(listing[1..], tag);
      assert listing == [listing[0]] + listing[1..];
      if HasProperCreator(listing[0].idPerms, tag) then
        var r := [listing[0]] + rest;
        assert r[1..] == rest;
        r
      else rest
  }

  // ---- idempotent create: "already exists" is absorbed ----

  function CreateVn(s: Store, vn: VirtualNetwork): (r: Store)
    ensures vn.uuid in s.vns || vn.fqName in VnNames(s) ==> r == s
    ensures vn.uuid in r.vns || vn.fqName in VnNames(r)
    ensures vn.uuid !in s.vns && vn.fqName !in VnNames(s) ==>
      && ReadVn(r, vn.uuid) == Some(vn.(vmiBackRefs := []))
      && r.writes == s.writes + [Created(VirtualNetworkKind, vn.uuid)]
    ensures vn.uuid !in s.vns && vn.fqName !in VnNames(s) ==>
      r == s.(vns := s.vns[vn.uuid := vn.(vmiBackRefs := [])], writes := r.writes)
  {
    match VnCreate(s, vn)
    case Success(created) => created
    case Failure(_) => s
  }

  /** `create_vpg`: only "already exists" is absorbed; a VMI ref the
      controller cannot resolve escapes as "not found". */
  function CreateVpg(s: Store, vpg: VirtualPortGroup): (r: Result<Store, Error>)
    ensures vpg.uuid in s.vpgs || vpg.fqName in VpgNames(s) ==> r == Success(s)
    ensures r.Failure? <==> vpg.uuid !in s.vpgs && vpg.fqName !in VpgNames(s) && !VmiRefsHeld(s, {}, vpg.vmiRefs)
    ensures r.Failure? ==> r.error == NoIdError
    ensures r.Success? ==> vpg.uuid in r.value.vpgs || vpg.fqName in VpgNames(r.value)
    ensures r.Success? && vpg.uuid !in s.vpgs && vpg.fqName !in VpgNames(s) ==>
      && ReadVpg(r.value, vpg.uuid) == Some(vpg)
      && r.value.writes == s.writes + [Created(VirtualPortGroupKind, vpg.uuid)]
      && r.value.vpgs == s.vpgs[vpg.uuid := vpg]
      && r.value.vns == s.vns && r.value.pis == s.pis
      && r.value.vmis.Keys == s.vmis.Keys
      && (forall v :: v in s.vmis && v in vpg.vmiRefs ==>
            r.value.vmis[v] == s.vmis[v].(vpgBackRefs := s.vmis[v].vpgBackRefs + [vpg.uuid]))
      && (forall v :: v in s.vmis && v !in vpg.vmiRefs ==> r.value.vmis[v] == s.vmis[v])
  {
    match VpgCreate(s, vpg)
    case Success(created) => Success(created)
    case Failure(RefsExistError) => Success(s)
    case Failure(e) => Failure(e)
  }

  /** `create_vmi`: only "already exists" is absorbed; a network the
      controller does not hold escapes as "not found". */
  function CreateVmi(s: Store, vmi: VirtualMachineInterface): (r: Result<Store, Error>)
    ensures vmi.uuid in s.vmis || vmi.fqName in VmiNames(s) ==> r == Success(s)
    ensures r.Failure? <==> vmi.uuid !in s.vmis && vmi.fqName !in VmiNames(s) && !VnRefsHeld(s, vmi.vnRefs)
    ensures r.Failure? ==> r.error == NoIdError
    ensures r.Success? ==> vmi.uuid in r.value.vmis || vmi.fqName in VmiNames(r.value)
    ensures r.Success? && vmi.uuid !in s.vmis && vmi.fqName !in VmiNames(s) ==>
      && ReadVmi(r.value, vmi.uuid) == Some(vmi.(vpgBackRefs := []))
      && r.value.vmis == s.vmis[vmi.uuid := vmi.(vpgBackRefs := [])]
      && r.value.writes == s.writes + [Created(VirtualMachineInterfaceKind, vmi.uuid)]
      && r.value.vns.Keys == s.vns.Keys
      && (forall n :: n in s.vns && n in vmi.vnRefs ==>
            r.value.vns[n] == s.vns[n].(vmiBackRefs := s.vns[n].vmiBackRefs + [vmi.uuid]))
      && (forall n :: n in s.vns && n !in vmi.vnRefs ==> r.value.vns[n] == s.vns[n])
    ensures r.Success? ==> r.value.vns.Keys == s.vns.Keys && r.value.vpgs == s.vpgs && r.value.pis == s.pis
  {
    match VmiCreate(s, vmi)
    case Success(created) => Success(created)
    case Failure(RefsExistError) => Success(s)
    case Failure(e) => Failure(e)
  }

  // ---- reads: "not found" is None ----

  function ReadVn(s: Store, u: Uuid): (r: Option<VirtualNetwork>)
    ensures r.Some? <==> u in s.vns
    ensures r.Some? ==> r.value == s.vns[u] && r.value.uuid == u
  {
    if u in s.vns then Some(s.vns[u]) else None
  }

  function ReadVpg(s: Store, u: Uuid): (r: Option<VirtualPortGroup>)
    ensures r.Some? <==> u in s.vpgs
    ensures r.Some? ==> r.value == s.vpgs[u] && r.value.uuid == u
  {
    if u in s.vpgs then Some(s.vpgs[u]) else None
  }

  function ReadVmi(s: Store, u: Uuid): (r: Option<VirtualMachineInterface>)
    ensures r.Some? <==> u in s.vmis
    ensures r.Some? ==> r.value == s.vmis[u] && r.value.uuid == u
  {
    if u in s.vmis then Some(s.vmis[u]) else None
  }

  /** `read_pi`; it logs and falls through to an implicit `None`. */
  function ReadPi(s: Store, u: Uuid): (r: Option<PhysicalInterface>)
    ensures r.Some? <==> u in s.pis
    ensures r.Some? ==> r.value == s.pis[u] && r.value.uuid == u
  {
    if u in s.pis then Some(s.pis[u]) else None
  }

  // ---- idempotent update and delete: "not found" is absorbed ----

  /** `update_vpg`: "not found", for the port group or for a VMI ref it
      adds, is absorbed and leaves the controller as it was. */
  function UpdateVpg(s: Store, vpg: VirtualPortGroup): (r: Store)
    ensures vpg.uuid !in s.vpgs || !VmiRefsHeld(s, s.vpgs[vpg.uuid].vmiRefs, vpg.vmiRefs) ==> r == s
    ensures r.vpgs.Keys == s.vpgs.Keys
    ensures vpg.uuid in s.vpgs && VmiRefsHeld(s, s.vpgs[vpg.uuid].vmiRefs, vpg.vmiRefs) ==>
      && r.vpgs[vpg.uuid].vmiRefs == vpg.vmiRefs
      && r.vpgs[vpg.uuid].piRefs == vpg.piRefs
      && r.writes == s.writes + [Updated(VirtualPortGroupKind, vpg.uuid)]
    ensures vpg.uuid in s.vpgs && VmiRefsHeld(s, s.vpgs[vpg.uuid].vmiRefs, vpg.vmiRefs) ==>
      && r.vpgs == s.vpgs[vpg.uuid := s.vpgs[vpg.uuid].(piRefs := vpg.piRefs, vmiRefs := vpg.vmiRefs)]
      && r.vmis == Relink(s.vmis, vpg.uuid, s.vpgs[vpg.uuid].vmiRefs, vpg.vmiRefs)
      && r.vns == s.vns && r.pis == s.pis
  {
    match VpgUpdate(s, vpg)
    case Success(updated) => updated
    case Failure(_) => s
  }

  function DeleteVpg(s: Store, g: Uuid): (r: Store)
    ensures g !in s.vpgs ==> r == s
    ensures r.vpgs == s.vpgs - {g}
    ensures g in s.vpgs ==> r.writes == s.writes + [Deleted(VirtualPortGroupKind, g)]
    ensures g in s.vpgs ==> r.vmis == Relink(s.vmis, g, s.vpgs[g].vmiRefs, {})
    ensures r.vns == s.vns && r.pis == s.pis
  {
    match VpgDelete(s, g)
    case Success(deleted) => deleted
    case Failure(_) => s
  }

  // ---- VMI detachment and deletion ----

  /** The port group a VMI is detached from: the first of its back-refs. */
  function FirstVpg(s: Store, u: Uuid): Uuid
    requires u in s.vmis && |s.vmis[u].vpgBackRefs| > 0
  {
    s.vmis[u].vpgBackRefs[0]
  }

  /** The VMI exists and has a port group back-ref to detach from. */
  predicate HasVpg(s: Store, u: Uuid) {
    u in s.vmis && |s.vmis[u].vpgBackRefs| > 0
  }

  /** `detach_vmi_from_vpg`: drop the VMI from its first port group's refs,
      push the port group, and delete the port group if no VMI is left. */
  function DetachVmiFromVpg(s: Store, u: Uuid): (r: Result<Store, Error>)
    ensures !HasVpg(s, u) ==> r == Success(s)
    ensures HasVpg(s, u) && FirstVpg(s, u) !in s.vpgs ==> r == Failure(Crash)
    ensures HasVpg(s, u) && FirstVpg(s, u) in s.vpgs ==>
      var g := FirstVpg(s, u);
      var left := s.vpgs[g].vmiRefs - {u};
      && r.Success?
      && (g in r.value.vpgs <==> left != {})
      && (g in r.value.vpgs ==> r.value.vpgs[g] == s.vpgs[g].(vmiRefs := left))
      && r.value.vpgs.Keys == (if left == {} then s.vpgs.Keys - {g} else s.vpgs.Keys)
      && (forall h :: h in r.value.vpgs && h != g ==> r.value.vpgs[h] == s.vpgs[h])
      && r.value.vmis.Keys == s.vmis.Keys
      && (forall v :: v in s.vmis ==> r.value.vmis[v] == s.vmis[v].(vpgBackRefs := r.value.vmis[v].vpgBackRefs))
      && (u in s.vpgs[g].vmiRefs ==> r.value.vmis[u].vpgBackRefs == Without(s.vmis[u].vpgBackRefs, g))
      && (forall v :: v in s.vmis && v != u ==> r.value.vmis[v] == s.vmis[v])
      && r.value.vns == s.vns && r.value.pis == s.pis
      && r.value.writes == s.writes + [Updated(VirtualPortGroupKind, g)]
                                    + (if left == {} then [Deleted(VirtualPortGroupKind, g)] else [])
  {
    match ReadVmi(s, u)
    case None => Success(s)
    case Some(vmi) =>
      if |vmi.vpgBackRefs| == 0 then Success(s)
      else
        match ReadVpg(s, vmi.vpgBackRefs[0])
        case None => Failure(Crash)
        case Some(vpg) =>
          var detached := vpg.(vmiRefs := vpg.vmiRefs - {vmi.uuid});
          var s1 := UpdateVpg(s, detached);
          if detached.vmiRefs == {} then Success(DeleteVpg(s1, vpg.uuid)) else Success(s1)
  }

  /** Every VMI of `t` was in `s` and still references the same networks. */
  ghost predicate SameVnRefs(s: Store, t: Store) {
    forall v :: v in t.vmis ==> v in s.vmis && t.vmis[v].vnRefs == s.vmis[v].vnRefs
  }

  /** The VMIs of `t` are VMIs of `s`, unchanged. */
  ghost predicate VmisKept(s: Store, t: Store) {
    forall v :: v in t.vmis ==> v in s.vmis && t.vmis[v] == s.vmis[v]
  }

  /** The port groups of `t` are port groups of `s` that at most lost VMI refs. */
  ghost predicate VpgsOnlyLoseVmis(s: Store, t: Store) {
    forall h :: h in t.vpgs ==>
      && h in s.vpgs
      && t.vpgs[h] == s.vpgs[h].(vmiRefs := t.vpgs[h].vmiRefs)
      && t.vpgs[h].vmiRefs <= s.vpgs[h].vmiRefs
  }

  /** The networks of `t` are networks of `s` that at most lost VMI back-refs. */
  ghost predicate VnsOnlyLoseVmis(s: Store, t: Store) {
    forall m :: m in t.vns ==>
      && m in s.vns
      && t.vns[m] == s.vns[m].(vmiBackRefs := t.vns[m].vmiBackRefs)
      && (forall x :: x in t.vns[m].vmiBackRefs ==> x in s.vns[m].vmiBackRefs)
  }

  /** A port group of `t` that had VMI refs in `s` still has some: the
      port groups an operation leaves without VMI refs are dropped. */
  ghost predicate NoVpgEmptied(s: Store, t: Store) {
    forall h :: h in t.vpgs && h in s.vpgs && s.vpgs[h].vmiRefs != {} ==> t.vpgs[h].vmiRefs != {}
  }

  /** `delete_vmi`: detach, then delete; a VMI that is already gone is fine. */
  function DeleteVmi(s: Store, u: Uuid): (r: Result<Store, Error>)
    ensures u !in s.vmis ==> r == Success(s)
    ensures r.Success? ==>
      && r.value.vmis.Keys == s.vmis.Keys - {u}
      && r.value.vns.Keys == s.vns.Keys
      && r.value.vpgs.Keys <= s.vpgs.Keys
      && r.value.pis == s.pis
      && SameVnRefs(s, r.value)
    ensures r.Success? && u in s.vmis ==>
      && |r.value.writes| > |s.writes|
      && r.value.writes[|r.value.writes| - 1] == Deleted(VirtualMachineInterfaceKind, u)
      && (HasVpg(s, u) ==> r.value.writes[|s.writes|] == Updated(VirtualPortGroupKind, FirstVpg(s, u)))
    ensures u in s.vmis && !HasVpg(s, u) ==> r.Success?
    ensures (&& HasVpg(s, u) && FirstVpg(s, u) in s.vpgs && u in s.vpgs[FirstVpg(s, u)].vmiRefs
             && (forall g :: g in s.vmis[u].vpgBackRefs ==> g == FirstVpg(s, u))) ==> r.Success?
    ensures r.Success? ==> VmisKept(s, r.value) && VpgsOnlyLoseVmis(s, r.value) && VnsOnlyLoseVmis(s, r.value)
    ensures r.Success? ==> NoVpgEmptied(s, r.value)
    ensures r.Success? && u in s.vmis ==>
      && (forall n :: n in s.vns && n in s.vmis[u].vnRefs ==>
            r.value.vns[n] == s.vns[n].(vmiBackRefs := Without(s.vns[n].vmiBackRefs, u)))
      && (forall n :: n in s.vns && n !in s.vmis[u].vnRefs ==> r.value.vns[n] == s.vns[n])
    ensures r.Success? && !HasVpg(s, u) ==> r.value.vpgs == s.vpgs
    ensures r.Success? && HasVpg(s, u) ==> FirstVpg(s, u) in s.vpgs
    ensures r.Success? && HasVpg(s, u) ==>
      var g := FirstVpg(s, u);
      var left := s.vpgs[g].vmiRefs - {u};
      && (g in r.value.vpgs <==> left != {})
      && (g in r.value.vpgs ==> r.value.vpgs[g] == s.vpgs[g].(vmiRefs := left))
      && (forall h :: h in s.vpgs && h != g ==> h in r.value.vpgs && r.value.vpgs[h] == s.vpgs[h])
  {
    DetachFrame(s, u);
    var s1 :- DetachVmiFromVpg(s, u);
    DeleteKeepsOtherVmis(s, u, s1);
    var r := DeleteDetached(s1, u);
    if r.Success? then DeleteKeepsOtherVpgs(s, u, s1, r.value); r else r
  }

  /** A store whose port groups are those the detach of `u` left (the VMI
      delete does not touch port groups) has `u`'s first port group without
      `u`, dropped once empty, and every other port group as it was. */
  lemma DeleteKeepsOtherVpgs(s: Store, u: Uuid, s1: Store, t: Store)
    requires DetachVmiFromVpg(s, u) == Success(s1)
    requires t.vpgs == s1.vpgs
    ensures VpgsOnlyLoseVmis(s, t)
    ensures NoVpgEmptied(s, t)
    ensures !HasVpg(s, u) ==> t.vpgs == s.vpgs
    ensures HasVpg(s, u) ==> FirstVpg(s, u) in s.vpgs
    ensures HasVpg(s, u) ==>
      var g := FirstVpg(s, u);
      var left := s.vpgs[g].vmiRefs - {u};
      && (g in t.vpgs <==> left != {})
      && (g in t.vpgs ==> t.vpgs[g] == s.vpgs[g].(vmiRefs := left))
      && (forall h :: h in s.vpgs && h != g ==> h in t.vpgs && t.vpgs[h] == s.vpgs[h])
  {
    DetachOnlyLosesVmis(s, u, s1);
  }

  /** Detaching and then deleting `u` leaves every other VMI as it was and
      takes `u` out of exactly the back-refs of the networks it referred to. */
  lemma DeleteKeepsOtherVmis(s: Store, u: Uuid, s1: Store)
    requires DetachVmiFromVpg(s, u) == Success(s1)
    ensures DeleteDetached(s1, u).Success? ==>
      var t := DeleteDetached(s1, u).value;
      && VmisKept(s, t)
      && VnsOnlyLoseVmis(s, t)
      && (u in s.vmis ==>
            && (forall n :: n in s.vns && n in s.vmis[u].vnRefs ==>
                  t.vns[n] == s.vns[n].(vmiBackRefs := Without(s.vns[n].vmiBackRefs, u)))
            && (forall n :: n in s.vns && n !in s.vmis[u].vnRefs ==> t.vns[n] == s.vns[n]))
  {
    assert s1.vns == s.vns;
    assert s1.vmis.Keys == s.vmis.Keys;
    assert forall v :: v in s.vmis && v != u ==> s1.vmis[v] == s.vmis[v];
    assert u in s.vmis ==> s1.vmis[u].vnRefs == s.vmis[u].vnRefs;
  }

  /** Detaching `u` only takes VMI refs out of port groups, or drops one. */
  lemma DetachOnlyLosesVmis(s: Store, u: Uuid, s1: Store)
    requires DetachVmiFromVpg(s, u) == Success(s1)
    ensures VpgsOnlyLoseVmis(s, s1)
  {
    if HasVpg(s, u) {
      VpgsAfterDetach(s, s1, FirstVpg(s, u), s.vpgs[FirstVpg(s, u)].vmiRefs - {u});
    }
  }

  /** Port group `g` replaced by its copy with VMI refs `left`, or dropped
      when `left` is empty, and every other port group kept: the port groups
      only lost VMI refs. */
  lemma VpgsAfterDetach(s: Store, s1: Store, g: Uuid, left: set<Uuid>)
    requires g in s.vpgs && left <= s.vpgs[g].vmiRefs
    requires s1.vpgs.Keys == (if left == {} then s.vpgs.Keys - {g} else s.vpgs.Keys)
    requires g in s1.vpgs ==> s1.vpgs[g] == s.vpgs[g].(vmiRefs := left)
    requires forall h :: h in s1.vpgs && h != g ==> s1.vpgs[h] == s.vpgs[h]
    ensures VpgsOnlyLoseVmis(s, s1)
  {
    forall h | h in s1.vpgs
      ensures h in s.vpgs && s1.vpgs[h] == s.vpgs[h].(vmiRefs := s1.vpgs[h].vmiRefs)
      ensures s1.vpgs[h].vmiRefs <= s.vpgs[h].vmiRefs
    {
      assert h in s1.vpgs.Keys;
    }
  }

  /** What the detach step of `delete_vmi` leaves for the delete step: the
      same VMIs with the same network refs, no new port group, one leading
      port group write when there was one to detach from, and no port group
      back-ref left when that was the VMI's only one and it was listed. */
  lemma DetachFrame(s: Store, u: Uuid)
    ensures DetachVmiFromVpg(s, u).Success? ==>
      var s1 := DetachVmiFromVpg(s, u).value;
      && s1.vmis.Keys == s.vmis.Keys
      && s1.vns.Keys == s.vns.Keys
      && s1.vpgs.Keys <= s.vpgs.Keys
      && s1.pis == s.pis
      && SameVnRefs(s, s1)
      && |s.writes| <= |s1.writes|
      && (HasVpg(s, u) ==> |s.writes| < |s1.writes| && s1.writes[|s.writes|] == Updated(VirtualPortGroupKind, FirstVpg(s, u)))
    ensures u in s.vmis && !HasVpg(s, u) ==> DetachVmiFromVpg(s, u) == Success(s)
    ensures (&& HasVpg(s, u) && FirstVpg(s, u) in s.vpgs && u in s.vpgs[FirstVpg(s, u)].vmiRefs
             && (forall g :: g in s.vmis[u].vpgBackRefs ==> g == FirstVpg(s, u))) ==>
      && DetachVmiFromVpg(s, u).Success?
      && |DetachVmiFromVpg(s, u).value.vmis[u].vpgBackRefs| == 0
  {
  }

  /** The second half of `delete_vmi`: the controller's delete, with "not
      found" absorbed. Other errors propagate. */
  function DeleteDetached(s: Store, u: Uuid): (r: Result<Store, Error>)
    ensures u !in s.vmis ==> r == Success(s)
    ensures u in s.vmis && |s.vmis[u].vpgBackRefs| == 0 ==> r.Success?
    ensures u in s.vmis && |s.vmis[u].vpgBackRefs| > 0 ==> r == Failure(RefsExistError)
    ensures r.Success? ==>
      && r.value.vmis == s.vmis - {u}
      && r.value.vns.Keys == s.vns.Keys
      && r.value.vpgs == s.vpgs
      && r.value.pis == s.pis
    ensures r.Success? && u in s.vmis ==> r.value.writes == s.writes + [Deleted(VirtualMachineInterfaceKind, u)]
    ensures r.Success? && u in s.vmis ==>
      && (forall n :: n in s.vns && n in s.vmis[u].vnRefs ==>
            r.value.vns[n] == s.vns[n].(vmiBackRefs := Without(s.vns[n].vmiBackRefs, u)))
      && (forall n :: n in s.vns && n !in s.vmis[u].vnRefs ==> r.value.vns[n] == s.vns[n])
  {
    match VmiDelete(s, u)
    case Success(deleted) => Success(deleted)
    case Failure(NoIdError) => Success(s)
    case Failure(e) => Failure(e)
  }

  /** The loop of `delete_vn`: delete each listed VMI in turn. */
  function DeleteVmis(s: Store, us: seq<Uuid>): (r: Result<Store, Error>)
    ensures r.Success? ==>
      && r.value.vmis.Keys == s.vmis.Keys - (set u | u in us)
      && r.value.vns.Keys == s.vns.Keys
      && r.value.vpgs.Keys <= s.vpgs.Keys
      && r.value.pis == s.pis
      && SameVnRefs(s, r.value)
      && VmisKept(s, r.value) && VpgsOnlyLoseVmis(s, r.value) && VnsOnlyLoseVmis(s, r.value)
      && NoVpgEmptied(s, r.value)
    decreases |us|
  {
    if |us| == 0 then Success(s)
    else
      var s1 :- DeleteVmi(s, us[0]);
      DeleteVmis(s1, us[1..])
  }

  /** `delete_vn`: the VN's VMIs first, then the VN itself. The source reads
      the VN without checking for `None`, so a missing VN raises. */
  function DeleteVn(s: Store, n: Uuid): (r: Result<Store, Error>)
    ensures n !in s.vns ==> r == Failure(Crash)
    ensures r.Success? ==>
      && n in s.vns
      && n !in r.value.vns
      && (forall u :: u in s.vns[n].vmiBackRefs ==> u !in r.value.vmis)
      && r.value.vns.Keys == s.vns.Keys - {n}
      && r.value.vmis.Keys == s.vmis.Keys - (set u | u in s.vns[n].vmiBackRefs)
      && r.value.vpgs.Keys <= s.vpgs.Keys
      && r.value.pis == s.pis
      && VmisKept(s, r.value) && VpgsOnlyLoseVmis(s, r.value) && VnsOnlyLoseVmis(s, r.value)
      && NoVpgEmptied(s, r.value)
  {
    if n !in s.vns then Failure(Crash)
    else
      var s1 :- DeleteVmis(s, s.vns[n].vmiBackRefs);
      match VnDelete(s1, n)
      case Success(deleted) => Success(deleted)
      case Failure(NoIdError) => Success(s1)
      case Failure(e) => Failure(e)
  }

  // ---- physical interface attachment ----

  function PiUuids(refs: seq<PiRef>): set<Uuid> {
    set i | 0 <= i < |refs| :: refs[i].uuid
  }

  function PisUuids(pis: seq<PhysicalInterface>): set<Uuid> {
    set i | 0 <= i < |pis| :: pis[i].uuid
  }

  /** `add_physical_interface` on the in-memory port group: a new ref goes
      at the end; an interface already referenced is not added twice. */
  function AddPi(refs: seq<PiRef>, pi: PhysicalInterface): (r: seq<PiRef>)
    ensures PiUuids(r) == PiUuids(refs) + {pi.uuid}
    ensures |r| >= |refs| && r[..|refs|] == refs
  {
    if pi.uuid in PiUuids(refs) then refs
    else
      var r := refs + [PiRef(pi.uuid, pi.fqName)];
      assert PiUuids(r) == PiUuids(refs) + {pi.uuid} by {
        forall x | x in PiUuids(r) ensures x in PiUuids(refs) + {pi.uuid} {
          var i :| 0 <= i < |r| && r[i].uuid == x;
          if i < |refs| { assert refs[i].uuid == x; }
        }
        forall x | x in PiUuids(refs) ensures x in PiUuids(r) {
          var i :| 0 <= i < |refs| && refs[i].uuid == x;
          assert r[i].uuid == x;
        }
        assert r[|refs|].uuid == pi.uuid;
      }
      r
  }

  function AddPis(refs: seq<PiRef>, pis: seq<PhysicalInterface>): (r: seq<PiRef>)
    ensures PiUuids(r) == PiUuids(refs) + PisUuids(pis)
    ensures |r| >= |refs| && r[..|refs|] == refs
    decreases |pis|
  {
    if |pis| == 0 then refs
    else
      var r := AddPis(AddPi(refs, pis[0]), pis[1..]);
      assert PisUuids(pis) == {pis[0].uuid} + PisUuids(pis[1..]) by {
        forall x | x in PisUuids(pis) ensures x in {pis[0].uuid} + PisUuids(pis[1..]) {
          var i :| 0 <= i < |pis| && pis[i].uuid == x;
          if i > 0 { assert pis[1..][i - 1].uuid == x; }
        }
        forall x | x in PisUuids(pis[1..]) ensures x in PisUuids(pis) {
          var i :| 0 <= i < |pis[1..]| && pis[1..][i].uuid == x;
          assert pis[i + 1].uuid == x;
        }
      }
      r
  }

  /** The refs that are not for `u`, in order. */
  function DropPi(refs: seq<PiRef>, u: Uuid): seq<PiRef> {
    if |refs| == 0 then []
    else if refs[0].uuid == u then DropPi(refs[1..], u)
    else [refs[0]] + DropPi(refs[1..], u)
  }

  lemma {:induction false} DropPiUuids(refs: seq<PiRef>, u: Uuid)
    ensures PiUuids(DropPi(refs, u)) == PiUuids(refs) - {u}
    decreases |refs|
  {
    if |refs| > 0 {
      var rest := DropPi(refs[1..], u);
      DropPiUuids(refs[1..], u);
      assert PiUuids(refs) == {refs[0].uuid} + PiUuids(refs[1..]) by {
        forall x | x in PiUuids(refs) ensures x in {refs[0].uuid} + PiUuids(refs[1..]) {
          var i :| 0 <= i < |refs| && refs[i].uuid == x;
          if i > 0 { assert refs[1..][i - 1].uuid == x; }
        }
        forall x | x in PiUuids(refs[1..]) ensures x in PiUuids(refs) {
          var i :| 0 <= i < |refs[1..]| && refs[1..][i].uuid == x;
          assert refs[i + 1].uuid == x;
        }
      }
      if refs[0].uuid != u {
        var r := [refs[0]] + rest;
        assert r[1..] == rest;
        assert PiUuids(r) == {refs[0].uuid} + PiUuids(rest) by {
          forall x | x in PiUuids(r) ensures x in {refs[0].uuid} + PiUuids(rest) {
            var i :| 0 <= i < |r| && r[i].uuid == x;
            if i > 0 { assert rest[i - 1].uuid == x; }
          }
          forall x | x in PiUuids(rest) ensures x in PiUuids(r) {
            var i :| 0 <= i < |rest| && rest[i].uuid == x;
            assert r[i + 1].uuid == x;
          }
          assert r[0].uuid == refs[0].uuid;
        }
      }
    }
  }

  lemma {:induction false} DropPiKeepsOrder(refs: seq<PiRef>, u: Uuid)
    ensures Subsequence(DropPi(refs, u), refs)
    decreases |refs|
  {
    if |refs| > 0 {
      var rest := DropPi(refs[1..], u);
      DropPiKeepsOrder(refs[1..], u);
      if refs[0].uuid != u {
        var r := [refs[0]] + rest;
        assert r[0] == refs[0] && r[1..] == rest;
      }
    }
  }

  /** `del_physical_interface` on the in-memory port group. */
  function DelPi(refs: seq<PiRef>, u: Uuid): (r: seq<PiRef>)
    ensures PiUuids(r) == PiUuids(refs) - {u}
    ensures Subsequence(r, refs)
  {
    DropPiUuids(refs, u);
    DropPiKeepsOrder(refs, u);
    DropPi(refs, u)
  }

  /** The detach loop of `detach_pis_from_vpg`, reading every interface
      first; a missing one is a `None` the loop then dereferences. */
  function DelPis(s: Store, refs: seq<PiRef>, us: seq<Uuid>): (r: Result<seq<PiRef>, Error>)
    ensures r.Success? <==> forall i :: 0 <= i < |us| ==> us[i] in s.pis
    ensures r.Success? ==> PiUuids(r.value) == PiUuids(refs) - (set u | u in us)
    ensures r.Success? ==> Subsequence(r.value, refs)
    ensures r.Failure? ==> r.error == Crash
    decreases |us|
  {
    if |us| == 0 then
      SubsequenceReflexive(refs);
      Success(refs)
    else
      match ReadPi(s, us[0])
      case None => Failure(Crash)
      case Some(pi) =>
        var r := DelPis(s, DelPi(refs, pi.uuid), us[1..]);
        assert forall i :: 1 <= i < |us| ==> us[i] == us[1..][i - 1];
        if r.Success? then
          SubsequenceTransitive(r.value, DelPi(refs, pi.uuid), refs);
          r
        else r
  }

  /** The port group push of `vpg` is the only change from `s` to `t`: the
      stored port group takes the pushed VMI refs, its other fields other than
      the interface refs are kept, the other port groups, the networks and
      the interfaces are untouched, and the VMIs' back-refs follow the refs. */
  ghost predicate PushedOnly(s: Store, t: Store, vpg: VirtualPortGroup) {
    && vpg.uuid in s.vpgs && vpg.uuid in t.vpgs
    && t.vpgs == s.vpgs[vpg.uuid := s.vpgs[vpg.uuid].(piRefs := t.vpgs[vpg.uuid].piRefs, vmiRefs := vpg.vmiRefs)]
    && t.vmis == Relink(s.vmis, vpg.uuid, s.vpgs[vpg.uuid].vmiRefs, vpg.vmiRefs)
    && t.vns == s.vns && t.pis == s.pis
  }

  /** `attach_pis_to_vpg`: one port group update for the whole batch, none
      for an empty batch. The update is not guarded: "not found" escapes. */
  function AttachPisToVpg(s: Store, vpg: VirtualPortGroup, pis: seq<PhysicalInterface>): (r: Result<Store, Error>)
    ensures |pis| == 0 ==> r == Success(s)
    ensures |pis| > 0 ==>
      (r.Success? <==> vpg.uuid in s.vpgs && VmiRefsHeld(s, s.vpgs[vpg.uuid].vmiRefs, vpg.vmiRefs))
    ensures |pis| > 0 && r.Failure? ==> r.error == NoIdError
    ensures r.Success? ==> r.value.vpgs.Keys == s.vpgs.Keys && r.value.pis == s.pis
    ensures |pis| > 0 && r.Success? ==>
      && PiUuids(r.value.vpgs[vpg.uuid].piRefs) == PiUuids(vpg.piRefs) + PisUuids(pis)
      && |r.value.vpgs[vpg.uuid].piRefs| >= |vpg.piRefs|
      && r.value.vpgs[vpg.uuid].piRefs[..|vpg.piRefs|] == vpg.piRefs
      && r.value.writes == s.writes + [Updated(VirtualPortGroupKind, vpg.uuid)]
    ensures |pis| > 0 && r.Success? ==>
      PushedOnly(s, r.value, vpg) && r.value.vpgs[vpg.uuid].piRefs == AddPis(vpg.piRefs, pis)
  {
    if |pis| == 0 then Success(s)
    else VpgUpdate(s, vpg.(piRefs := AddPis(vpg.piRefs, pis)))
  }

  /** `detach_pis_from_vpg`: one port group update for the whole batch, none
      for an empty batch. */
  function DetachPisFromVpg(s: Store, vpg: VirtualPortGroup, us: seq<Uuid>): (r: Result<Store, Error>)
    ensures |us| == 0 ==> r == Success(s)
    ensures |us| > 0 && (exists i :: 0 <= i < |us| && us[i] !in s.pis) ==> r == Failure(Crash)
    ensures |us| > 0 && (forall i :: 0 <= i < |us| ==> us[i] in s.pis) ==>
      (r.Success? <==> vpg.uuid in s.vpgs && VmiRefsHeld(s, s.vpgs[vpg.uuid].vmiRefs, vpg.vmiRefs))
    ensures r.Success? ==> r.value.vpgs.Keys == s.vpgs.Keys && r.value.pis == s.pis
    ensures |us| > 0 && r.Success? ==>
      && PiUuids(r.value.vpgs[vpg.uuid].piRefs) == PiUuids(vpg.piRefs) - (set u | u in us)
      && Subsequence(r.value.vpgs[vpg.uuid].piRefs, vpg.piRefs)
      && r.value.writes == s.writes + [Updated(VirtualPortGroupKind, vpg.uuid)]
    ensures |us| > 0 && r.Success? ==>
      && PushedOnly(s, r.value, vpg)
      && DelPis(s, vpg.piRefs, us).Success?
      && r.value.vpgs[vpg.uuid].piRefs == DelPis(s, vpg.piRefs, us).value
  {
    if |us| == 0 then Success(s)
    else
      var refs :- DelPis(s, vpg.piRefs, us);
      VpgUpdate(s, vpg.(piRefs := refs))
  }

  // ---- binding profile ----

  /** The port group's names have the shape the profile indexes into: every
      interface name has a switch and a port component, and when there is a
      link to describe, the port group's name has a fabric component. */
  predicate ProfileReady(vpg: VirtualPortGroup) {
    && (forall i :: 0 <= i < |vpg.piRefs| ==> |vpg.piRefs[i].to| >= 3)
    && (|vpg.piRefs| > 0 ==> |vpg.fqName| >= 2)
  }

  function LocalLinks(vpg: VirtualPortGroup): (links: seq<LocalLink>)
    requires ProfileReady(vpg)
    ensures |links| == |vpg.piRefs|
    ensures forall i :: 0 <= i < |links| ==>
      var to := vpg.piRefs[i].to;
      && links[i].portId == to[2]
      && links[i].switchId == to[2]
      && links[i].switchInfo == to[1]
      && links[i].fabric == vpg.fqName[1]
  {
    if |vpg.piRefs| == 0 then [] else LinksFor(vpg.piRefs, vpg.fqName[1])
  }

  /** One link per interface ref, in order, all on the same fabric. */
  function LinksFor(refs: seq<PiRef>, fabric: string): (links: seq<LocalLink>)
    requires forall i :: 0 <= i < |refs| ==> |refs[i].to| >= 3
    ensures |links| == |refs|
    ensures forall i :: 0 <= i < |links| ==>
      links[i] == LocalLink(refs[i].to[2], refs[i].to[2], fabric, refs[i].to[1])
  {
    if |refs| == 0 then []
    else [LocalLink(refs[0].to[2], refs[0].to[2], fabric, refs[0].to[1])] + LinksFor(refs[1..], fabric)
  }

  /** The three binding pairs `create_vmi_bindings` computes. */
  function Bindings(vpg: VirtualPortGroup): (pairs: seq<KeyValuePair>)
    requires ProfileReady(vpg)
    ensures |pairs| == 3
    ensures pairs[0] == KeyValuePair("vpg", Text(Name(vpg.fqName)))
    ensures pairs[1] == KeyValuePair("vnic_type", Text("baremetal"))
    ensures pairs[2].key == "profile" && pairs[2].value.Profile?
    ensures |pairs[2].value.localLinkInformation| == |vpg.piRefs|
    ensures forall i :: 0 <= i < |vpg.piRefs| ==>
      pairs[2].value.localLinkInformation[i]
        == LocalLink(vpg.piRefs[i].to[2], vpg.piRefs[i].to[2], vpg.fqName[1], vpg.piRefs[i].to[1])
  {
    [ KeyValuePair("vpg", Text(Name(vpg.fqName))),
      KeyValuePair("vnic_type", Text("baremetal")),
      KeyValuePair("profile", Profile(LocalLinks(vpg))) ]
  }

  /** The VMI already carries exactly these bindings, compared as sets. */
  predicate BindingsCurrent(vmi: VirtualMachineInterface, pairs: seq<KeyValuePair>) {
    && vmi.bindings.Some?
    && (set p | p in vmi.bindings.value) == (set p | p in pairs)
  }

  /** `create_vmi_bindings`: set the bindings derived from the port group
      and push the VMI, unless it already has them. A name too short for
      the profile's indexing raises before anything is compared or written. */
  function CreateVmiBindings(s: Store, vmi: VirtualMachineInterface, vpg: VirtualPortGroup): (r: Result<Store, Error>)
    ensures r == Failure(Crash) <==> !ProfileReady(vpg)
    ensures ProfileReady(vpg) && BindingsCurrent(vmi, Bindings(vpg)) ==> r == Success(s)
    ensures ProfileReady(vpg) && !BindingsCurrent(vmi, Bindings(vpg)) ==> (r.Success? <==> vmi.uuid in s.vmis)
    ensures ProfileReady(vpg) && r.Failure? ==> r.error == NoIdError
    ensures ProfileReady(vpg) && !BindingsCurrent(vmi, Bindings(vpg)) && r.Success? ==>
      && r.value.vmis.Keys == s.vmis.Keys
      && r.value.vmis[vmi.uuid] == s.vmis[vmi.uuid].(bindings := Some(Bindings(vpg)))
      && BindingsCurrent(r.value.vmis[vmi.uuid], Bindings(vpg))
      && r.value.writes == s.writes + [Updated(VirtualMachineInterfaceKind, vmi.uuid)]
      && r.value == s.(vmis := r.value.vmis, writes := r.value.writes)
      && (forall v :: v in s.vmis && v != vmi.uuid ==> r.value.vmis[v] == s.vmis[v])
  {
    if !ProfileReady(vpg) then Failure(Crash)
    else
      var pairs := Bindings(vpg);
      if BindingsCurrent(vmi, pairs) then Success(s)
      else VmiUpdate(s, vmi.(bindings := Some(pairs)))
  }

  // ---- VLAN of a network ----

  /** `get_vn_vlan`: the VLAN tag of the network's first VMI, if any. */
  function GetVnVlan(s: Store, vn: VirtualNetwork): (r: Result<Option<int>, Error>)
    ensures |vn.vmiBackRefs| == 0 ==> r == Success(None)
    ensures |vn.vmiBackRefs| > 0 ==>
      var u := vn.vmiBackRefs[0];
      && (r.Success? <==> u in s.vmis && s.vmis[u].properties.Some?)
      && (r.Success? ==> r.value == s.vmis[u].properties.value.subInterfaceVlanTag)
    ensures r.Failure? ==> r.error == Crash
  {
    if |vn.vmiBackRefs| == 0 then Success(None)
    else
      match ReadVmi(s, vn.vmiBackRefs[0])
      case None => Failure(Crash)
      case Some(vmi) =>
        match vmi.properties
        case None => Failure(Crash)
        case Some(props) => Success(props.subInterfaceVlanTag)
  }

  // ---- VLAN migration ----

  /** `_create_vnc_vmi_obj_with_new_vlan`: same uuid and name, placed in the
      admin project, bound to the network, tagged with the new VLAN, marked
      as ours, carrying the old bindings verbatim. */
  function VmiWithNewVlan(c: Client, newVlan: int, oldVmi: VirtualMachineInterface, vn: VirtualNetwork)
    : (vmi: VirtualMachineInterface)
    ensures vmi.uuid == oldVmi.uuid
    ensures Name(vmi.fqName) == Name(oldVmi.fqName)
    ensures vmi.vnRefs == [vn.uuid]
    ensures vmi.properties == Some(VmiProperties(Some(newVlan)))
    ensures vmi.bindings == oldVmi.bindings
    ensures HasProperCreator(vmi.idPerms, c.creatorTag)
    ensures vmi.vpgBackRefs == []
  {
    VirtualMachineInterface(
      uuid := oldVmi.uuid,
      fqName := c.projectFqName + [Name(oldVmi.fqName)],
      idPerms := Some(IdPerms(Some(c.creatorTag))),
      vnRefs := [vn.uuid],
      properties := Some(VmiProperties(Some(newVlan))),
      bindings := oldVmi.bindings,
      vpgBackRefs := [])
  }

  /** `_delete_old_vmi`: detach through the guarded port group update, then
      delete the VMI with the unguarded controller call. The port group is
      never deleted here. The push is refused, and absorbed, when the port
      group is missing or the pushed refs add a VMI the controller lacks;
      the delete then needs the VMI to have no port group back-ref left. */
  function DeleteOldVmi(s: Store, oldVmi: VirtualMachineInterface, vpg: VirtualPortGroup): (r: Result<Store, Error>)
    ensures r.Success? <==>
      && oldVmi.uuid in s.vmis
      && (|| |s.vmis[oldVmi.uuid].vpgBackRefs| == 0
          || (&& vpg.uuid in s.vpgs
              && VmiRefsHeld(s, s.vpgs[vpg.uuid].vmiRefs, vpg.vmiRefs - {oldVmi.uuid})
              && oldVmi.uuid in s.vpgs[vpg.uuid].vmiRefs
              && forall h :: h in s.vmis[oldVmi.uuid].vpgBackRefs ==> h == vpg.uuid))
    ensures oldVmi.uuid !in s.vmis ==> r == Failure(NoIdError)
    ensures oldVmi.uuid in s.vmis && r.Failure? ==> r.error == RefsExistError
    ensures r.Success? ==>
      && oldVmi.uuid in s.vmis
      && r.value.vmis.Keys == s.vmis.Keys - {oldVmi.uuid}
      && r.value.vpgs.Keys == s.vpgs.Keys
      && r.value.vns.Keys == s.vns.Keys
      && r.value.pis == s.pis
      && (forall v :: v in r.value.vmis ==> r.value.vmis[v] == s.vmis[v].(vpgBackRefs := r.value.vmis[v].vpgBackRefs))
    ensures r.Success? && vpg.uuid in s.vpgs && VmiRefsHeld(s, s.vpgs[vpg.uuid].vmiRefs, vpg.vmiRefs - {oldVmi.uuid}) ==>
      && r.value.vpgs == s.vpgs[vpg.uuid := s.vpgs[vpg.uuid].(piRefs := vpg.piRefs, vmiRefs := vpg.vmiRefs - {oldVmi.uuid})]
      && r.value.writes == s.writes + [Updated(VirtualPortGroupKind, vpg.uuid), Deleted(VirtualMachineInterfaceKind, oldVmi.uuid)]
    ensures r.Success? && !(vpg.uuid in s.vpgs && VmiRefsHeld(s, s.vpgs[vpg.uuid].vmiRefs, vpg.vmiRefs - {oldVmi.uuid})) ==>
      && r.value.vpgs == s.vpgs
      && r.value.writes == s.writes + [Deleted(VirtualMachineInterfaceKind, oldVmi.uuid)]
    ensures r.Success? ==>
      && (forall n :: n in s.vns && n in s.vmis[oldVmi.uuid].vnRefs ==>
            r.value.vns[n] == s.vns[n].(vmiBackRefs := Without(s.vns[n].vmiBackRefs, oldVmi.uuid)))
      && (forall n :: n in s.vns && n !in s.vmis[oldVmi.uuid].vnRefs ==> r.value.vns[n] == s.vns[n])
  {
    var u := oldVmi.uuid;
    PushWithout(s, vpg, u);
    VmiDelete(UpdateVpg(s, vpg.(vmiRefs := vpg.vmiRefs - {u})), u)
  }

  /** Pushing port group `vpg` without VMI `u` changes only VMI back-refs,
      and leaves `u` without port group back-refs exactly when it had none,
      or the push went through, took `u` out and `vpg` was its only one. */
  lemma PushWithout(s: Store, vpg: VirtualPortGroup, u: Uuid)
    ensures
      var t := UpdateVpg(s, vpg.(vmiRefs := vpg.vmiRefs - {u}));
      && t.vmis.Keys == s.vmis.Keys
      && t.vns == s.vns && t.pis == s.pis
      && (forall v :: v in t.vmis ==> t.vmis[v] == s.vmis[v].(vpgBackRefs := t.vmis[v].vpgBackRefs))
    ensures u in s.vmis ==>
      var t := UpdateVpg(s, vpg.(vmiRefs := vpg.vmiRefs - {u}));
      (|t.vmis[u].vpgBackRefs| == 0 <==>
        || |s.vmis[u].vpgBackRefs| == 0
        || (&& vpg.uuid in s.vpgs
            && VmiRefsHeld(s, s.vpgs[vpg.uuid].vmiRefs, vpg.vmiRefs - {u})
            && u in s.vpgs[vpg.uuid].vmiRefs
            && forall h :: h in s.vmis[u].vpgBackRefs ==> h == vpg.uuid))
  {
    var t := UpdateVpg(s, vpg.(vmiRefs := vpg.vmiRefs - {u}));
    if u in s.vmis && vpg.uuid in s.vpgs && VmiRefsHeld(s, s.vpgs[vpg.uuid].vmiRefs, vpg.vmiRefs - {u})
       && u in s.vpgs[vpg.uuid].vmiRefs {
      assert t.vmis[u].vpgBackRefs == Without(s.vmis[u].vpgBackRefs, vpg.uuid);
      if |t.vmis[u].vpgBackRefs| == 0 && |s.vmis[u].vpgBackRefs| > 0 {
        forall h | h in s.vmis[u].vpgBackRefs ensures h == vpg.uuid {
          assert h !in t.vmis[u].vpgBackRefs;
        }
      }
    }
  }

  /** `_create_new_vmi`: create (absorbing "already exists"), then attach to
      the in-memory port group and push it. When the create was absorbed
      for another VMI's name, the push names a VMI the controller lacks and
      is refused, which `update_vpg` absorbs in turn. */
  function CreateNewVmi(s: Store, vmi: VirtualMachineInterface, vpg: VirtualPortGroup): (r: Result<Store, Error>)
    ensures r.Failure? <==> vmi.uuid !in s.vmis && vmi.fqName !in VmiNames(s) && !VnRefsHeld(s, vmi.vnRefs)
    ensures r.Failure? ==> r.error == NoIdError
    ensures r.Success? ==> r.value.vpgs.Keys == s.vpgs.Keys && r.value.vmis.Keys <= s.vmis.Keys + {vmi.uuid}
    ensures r.Success? && vpg.uuid in s.vpgs ==>
      var before := s.vpgs[vpg.uuid].vmiRefs;
      && (VmiRefsHeld(r.value, before, vpg.vmiRefs + {vmi.uuid}) ==>
            r.value.vpgs[vpg.uuid].vmiRefs == vpg.vmiRefs + {vmi.uuid})
      && (!VmiRefsHeld(r.value, before, vpg.vmiRefs + {vmi.uuid}) ==> r.value.vpgs == s.vpgs)
      && (forall x :: x in r.value.vpgs[vpg.uuid].vmiRefs && x !in before ==> x in r.value.vmis)
  {
    var s1 :- CreateVmi(s, vmi);
    Success(UpdateVpg(s1, vpg.(vmiRefs := vpg.vmiRefs + {vmi.uuid})))
  }

  /** No VMI other than `u` already uses the name `fqName`. */
  predicate NameFreeFor(s: Store, u: Uuid, fqName: seq<string>) {
    forall v :: v in s.vmis && v != u ==> s.vmis[v].fqName != fqName
  }

  /** `recreate_vmi_with_new_vlan`: replace the VMI by one with the same
      uuid and the new VLAN, re-attached to the port group of its first
      back-ref. */
  function RecreateVmiWithNewVlan(c: Client, s: Store, oldVmi: VirtualMachineInterface, vn: VirtualNetwork, newVlan: int)
    : (r: Result<Store, Error>)
    ensures |oldVmi.vpgBackRefs| == 0 || oldVmi.vpgBackRefs[0] !in s.vpgs ==> r == Failure(Crash)
    ensures r.Success? ==>
      var g := oldVmi.vpgBackRefs[0];
      && r.value.vpgs.Keys == s.vpgs.Keys
      && (oldVmi.uuid in r.value.vpgs[g].vmiRefs <==> oldVmi.uuid in r.value.vmis)
      && r.value.vpgs[g].piRefs == s.vpgs[g].piRefs
      && r.value.vmis.Keys <= s.vmis.Keys
  {
    if |oldVmi.vpgBackRefs| == 0 then Failure(Crash)
    else
      match ReadVpg(s, oldVmi.vpgBackRefs[0])
      case None => Failure(Crash)
      case Some(vpg) =>
        var vmi := VmiWithNewVlan(c, newVlan, oldVmi, vn);
        var s1 :- DeleteOldVmi(s, oldVmi, vpg);
        CreateNewVmi(s1, vmi, vpg.(vmiRefs := vpg.vmiRefs - {oldVmi.uuid}))
  }
}

=== FILE: vnc_properties.dfy ===
/** Properties that relate several calls of the reconciliation client:
    cascading deletion on a consistent controller, idempotent creation, the
    physical-interface attach/detach round trip, binding-update elision and
    identity preservation across VLAN migration. */
module VncProperties {
  import opened Wrappers
  import opened Sequences
  import opened Controller
  import opened VncClient
  import opened Maps

  /** A VMI's port group back-refs name existing port groups that refer to it. */
  ghost predicate VpgBackRefsSound(s: Store) {
    forall u, g :: u in s.vmis && g in s.vmis[u].vpgBackRefs ==> g in s.vpgs && u in s.vpgs[g].vmiRefs
  }

  /** A port group's VMI refs name existing VMIs that have it as a back-ref. */
  ghost predicate VpgRefsSound(s: Store) {
    forall g, u :: g in s.vpgs && u in s.vpgs[g].vmiRefs ==> u in s.vmis && g in s.vmis[u].vpgBackRefs
  }

  /** A VMI belongs to at most one port group. */
  ghost predicate SingleVpg(s: Store) {
    forall u :: u in s.vmis ==> |s.vmis[u].vpgBackRefs| <= 1
  }

  /** A network's VMI back-refs name existing VMIs that refer to it. */
  ghost predicate VnBackRefsSound(s: Store) {
    forall n, u :: n in s.vns && u in s.vns[n].vmiBackRefs ==> u in s.vmis && n in s.vmis[u].vnRefs
  }

  /** Every VMI that refers to an existing network is in its back-refs. */
  ghost predicate VnBackRefsComplete(s: Store) {
    forall n, u :: n in s.vns && u in s.vmis && n in s.vmis[u].vnRefs ==> u in s.vns[n].vmiBackRefs
  }

  /** The controller's references agree with each other. */
  ghost predicate Linked(s: Store) {
    && VpgBackRefsSound(s)
    && VpgRefsSound(s)
    && SingleVpg(s)
    && VnBackRefsSound(s)
    && VnBackRefsComplete(s)
  }

  /** Networks survive, and their VMI back-refs only lose entries, `u` among them. */
  ghost predicate VnBackRefsShrink(s: Store, t: Store, u: Uuid) {
    forall n :: n in s.vns ==>
      && n in t.vns
      && forall x :: x in t.vns[n].vmiBackRefs ==> x in s.vns[n].vmiBackRefs && x != u
  }

  lemma NonEmptyHasHead<T>(xs: seq<T>)
    ensures |xs| > 0 ==> xs[0] in xs
  {
  }

  lemma EmptyWhenNoMember<T>(xs: seq<T>, ys: seq<T>)
    requires forall x :: x in xs ==> x in ys
    requires |ys| == 0
    ensures xs == []
  {
    NonEmptyHasHead(xs);
  }

  /** The controller's removal of a VMI with no port group back-refs. */
  lemma VmiDeleteSucceeds(s: Store, u: Uuid)
    requires u in s.vmis && |s.vmis[u].vpgBackRefs| == 0
    ensures VmiDelete(s, u).Success?
    ensures VmiDelete(s, u).value.vmis == s.vmis - {u}
    ensures VmiDelete(s, u).value.vpgs == s.vpgs
  {
  }

  lemma VmiDeleteKeepsVmiSide(s: Store, u: Uuid)
    requires VpgBackRefsSound(s) && VpgRefsSound(s) && SingleVpg(s)
    requires u in s.vmis && |s.vmis[u].vpgBackRefs| == 0
    ensures VmiDelete(s, u).Success?
    ensures VpgBackRefsSound(VmiDelete(s, u).value) && SingleVpg(VmiDelete(s, u).value)
    ensures VpgRefsSound(VmiDelete(s, u).value)
  {
    VmiDeleteSucceeds(s, u);
  }

  /** `t` is `s` after the controller removed VMI `u`: `u` is gone from the
      VMIs and from the back-refs of the networks it referred to. */
  ghost predicate VmiRemoved(s: Store, t: Store, u: Uuid)
    requires u in s.vmis
  {
    && t.vmis == s.vmis - {u}
    && t.vns.Keys == s.vns.Keys
    && (forall n :: n in s.vns && n in s.vmis[u].vnRefs ==> t.vns[n].vmiBackRefs == Without(s.vns[n].vmiBackRefs, u))
    && (forall n :: n in s.vns && n !in s.vmis[u].vnRefs ==> t.vns[n] == s.vns[n])
  }

  lemma RemovalKeepsVnSound(s: Store, t: Store, u: Uuid)
    requires VnBackRefsSound(s) && u in s.vmis && VmiRemoved(s, t, u)
    ensures VnBackRefsSound(t)
  {
    forall n, x | n in t.vns && x in t.vns[n].vmiBackRefs
      ensures x in t.vmis && n in t.vmis[x].vnRefs
    {
      RemovedBackRefWasThere(s, t, u, n, x);
    }
  }

  /** After the removal a network's back-refs are a subset of what they
      were, without `u`, when `u` was only listed where it referred. */
  lemma RemovedBackRefWasThere(s: Store, t: Store, u: Uuid, n: Uuid, x: Uuid)
    requires VnBackRefsSound(s) && u in s.vmis && VmiRemoved(s, t, u)
    requires n in t.vns && x in t.vns[n].vmiBackRefs
    ensures n in s.vns && x in s.vns[n].vmiBackRefs && x != u
    ensures x in t.vmis && n in t.vmis[x].vnRefs
  {
    if n in s.vmis[u].vnRefs {
      assert t.vns[n].vmiBackRefs == Without(s.vns[n].vmiBackRefs, u);
    } else {
      assert t.vns[n] == s.vns[n];
      assert n in s.vmis[x].vnRefs;
    }
    assert x in s.vmis && n in s.vmis[x].vnRefs;
    assert t.vmis[x] == s.vmis[x];
  }

  lemma RemovalKeepsVnComplete(s: Store, t: Store, u: Uuid)
    requires VnBackRefsComplete(s) && u in s.vmis && VmiRemoved(s, t, u)
    ensures VnBackRefsComplete(t)
  {
    forall n, x | n in t.vns && x in t.vmis && n in t.vmis[x].vnRefs
      ensures x in t.vns[n].vmiBackRefs
    {
      assert x in s.vns[n].vmiBackRefs;
    }
  }

  lemma RemovalShrinksVnSide(s: Store, t: Store, u: Uuid)
    requires VnBackRefsSound(s) && u in s.vmis && VmiRemoved(s, t, u)
    ensures VnBackRefsShrink(s, t, u)
  {
    forall n | n in s.vns
      ensures n in t.vns && forall x :: x in t.vns[n].vmiBackRefs ==> x in s.vns[n].vmiBackRefs && x != u
    {
      if n !in s.vmis[u].vnRefs {
        assert u !in s.vns[n].vmiBackRefs;
      }
    }
  }

  lemma VmiDeleteKeepsVnSide(s: Store, u: Uuid)
    requires VnBackRefsSound(s) && VnBackRefsComplete(s)
    requires u in s.vmis && |s.vmis[u].vpgBackRefs| == 0
    ensures VmiDelete(s, u).Success?
    ensures VnBackRefsSound(VmiDelete(s, u).value)
    ensures VnBackRefsComplete(VmiDelete(s, u).value)
    ensures VnBackRefsShrink(s, VmiDelete(s, u).value, u)
  {
    VmiDeleteSucceeds(s, u);
    var t := VmiDelete(s, u).value;
    assert VmiRemoved(s, t, u);
    RemovalKeepsVnSound(s, t, u);
    RemovalKeepsVnComplete(s, t, u);
    RemovalShrinksVnSide(s, t, u);
  }

  /** The controller's own VMI deletion keeps the references consistent. */
  lemma VmiDeleteKeepsLinked(s: Store, u: Uuid)
    requires Linked(s)
    requires u in s.vmis && |s.vmis[u].vpgBackRefs| == 0
    ensures VmiDelete(s, u).Success?
    ensures Linked(VmiDelete(s, u).value)
    ensures VnBackRefsShrink(s, VmiDelete(s, u).value, u)
  {
    VmiDeleteKeepsVmiSide(s, u);
    VmiDeleteKeepsVnSide(s, u);
  }

  /** On a controller whose VMI back-refs are sound, detaching succeeds and
      leaves every network and every VMI's network refs alone. */
  lemma DetachSucceeds(s: Store, u: Uuid)
    requires VpgBackRefsSound(s)
    ensures DetachVmiFromVpg(s, u).Success?
    ensures DetachVmiFromVpg(s, u).value.vns == s.vns
    ensures DetachVmiFromVpg(s, u).value.vmis.Keys == s.vmis.Keys
    ensures forall v :: v in s.vmis ==>
      DetachVmiFromVpg(s, u).value.vmis[v].vnRefs == s.vmis[v].vnRefs
  {
    if HasVpg(s, u) {
      assert FirstVpg(s, u) in s.vmis[u].vpgBackRefs;
    }
  }

  /** The detached VMI has no port group back-ref left. */
  lemma DetachEmptiesBackRefs(s: Store, u: Uuid)
    requires VpgBackRefsSound(s) && SingleVpg(s)
    requires u in s.vmis
    ensures DetachVmiFromVpg(s, u).Success?
    ensures |DetachVmiFromVpg(s, u).value.vmis[u].vpgBackRefs| == 0
  {
    DetachSucceeds(s, u);
    if HasVpg(s, u) {
      var g := FirstVpg(s, u);
      var backRefs := s.vmis[u].vpgBackRefs;
      assert g in backRefs;
      assert forall x :: x in backRefs ==> x == g by {
        forall x | x in backRefs ensures x == g {
          var i :| 0 <= i < |backRefs| && backRefs[i] == x;
        }
      }
    }
  }

  lemma DetachKeepsVmiSide(s: Store, u: Uuid)
    requires VpgBackRefsSound(s) && VpgRefsSound(s) && SingleVpg(s)
    ensures DetachVmiFromVpg(s, u).Success?
    ensures VpgBackRefsSound(DetachVmiFromVpg(s, u).value)
    ensures VpgRefsSound(DetachVmiFromVpg(s, u).value)
    ensures SingleVpg(DetachVmiFromVpg(s, u).value)
  {
    DetachSucceeds(s, u);
    if HasVpg(s, u) {
      DetachEmptiesBackRefs(s, u);
      assert FirstVpg(s, u) in s.vmis[u].vpgBackRefs;
      DetachKeepsOthers(s, u);
      var t := DetachVmiFromVpg(s, u).value;
      DetachedSound(s, t, u, FirstVpg(s, u));
    }
  }

  /** Detaching a VMI from its port group `g` only touches that VMI and
      `g`, which loses its ref to the VMI and is gone if no ref is left. */
  lemma DetachKeepsOthers(s: Store, u: Uuid)
    requires HasVpg(s, u) && FirstVpg(s, u) in s.vpgs
    ensures DetachVmiFromVpg(s, u).Success?
    ensures
      var t := DetachVmiFromVpg(s, u).value;
      var g := FirstVpg(s, u);
      && t.vmis.Keys == s.vmis.Keys
      && t.vpgs.Keys <= s.vpgs.Keys
      && (forall v :: v in s.vmis && v != u ==> t.vmis[v] == s.vmis[v])
      && (forall h :: h in s.vpgs && h != g ==> h in t.vpgs && t.vpgs[h] == s.vpgs[h])
      && (g in t.vpgs <==> s.vpgs[g].vmiRefs - {u} != {})
      && (g in t.vpgs ==> t.vpgs[g].vmiRefs == s.vpgs[g].vmiRefs - {u})
  {
    var g := FirstVpg(s, u);
    var t := DetachVmiFromVpg(s, u).value;
    KeptOutside(s.vpgs, t.vpgs, g, s.vpgs[g].vmiRefs - {u} == {});
  }

  /** A store that differs from a sound, single-port-group one only in VMI
      `u`, now without back-refs, and in `g`, its port group, which no longer
      refers to `u` and may be gone if nothing else referred to it, is still
      sound and single-port-group. */
  lemma DetachedSound(s: Store, t: Store, u: Uuid, g: Uuid)
    requires VpgBackRefsSound(s) && VpgRefsSound(s) && SingleVpg(s)
    requires g in s.vpgs && u in s.vmis && g in s.vmis[u].vpgBackRefs
    requires t.vmis.Keys == s.vmis.Keys && |t.vmis[u].vpgBackRefs| == 0
    requires t.vpgs.Keys <= s.vpgs.Keys
    requires forall v :: v in s.vmis && v != u ==> t.vmis[v] == s.vmis[v]
    requires forall h :: h in s.vpgs && h != g ==> h in t.vpgs && t.vpgs[h] == s.vpgs[h]
    requires g in t.vpgs <==> s.vpgs[g].vmiRefs - {u} != {}
    requires g in t.vpgs ==> t.vpgs[g].vmiRefs == s.vpgs[g].vmiRefs - {u}
    ensures VpgBackRefsSound(t) && VpgRefsSound(t) && SingleVpg(t)
  {
    forall h, v | h in t.vpgs && v in t.vpgs[h].vmiRefs
      ensures v in t.vmis && h in t.vmis[v].vpgBackRefs
    {
      if h == g {
        assert v in s.vpgs[g].vmiRefs - {u};
      } else {
        assert v in s.vpgs[h].vmiRefs;
        if v == u {
          OnlyBackRef(s, u, g, h);
          assert false;
        }
      }
      assert t.vmis[v] == s.vmis[v];
    }
    forall v, h | v in t.vmis && h in t.vmis[v].vpgBackRefs
      ensures h in t.vpgs && v in t.vpgs[h].vmiRefs
    {
      assert v != u;
      assert t.vmis[v] == s.vmis[v];
      if h == g {
        assert v in s.vpgs[g].vmiRefs - {u};
      }
    }
    forall v | v in t.vmis ensures |t.vmis[v].vpgBackRefs| <= 1 {
      if v != u {
        assert t.vmis[v] == s.vmis[v];
      }
    }
  }

  /** A VMI with at most one port group back-ref has no other than `g`
      once `g` is among them. */
  lemma OnlyBackRef(s: Store, v: Uuid, g: Uuid, h: Uuid)
    requires SingleVpg(s) && v in s.vmis
    requires g in s.vmis[v].vpgBackRefs && h in s.vmis[v].vpgBackRefs
    ensures h == g
  {
    var backRefs := s.vmis[v].vpgBackRefs;
    var i :| 0 <= i < |backRefs| && backRefs[i] == g;
    var j :| 0 <= j < |backRefs| && backRefs[j] == h;
  }

  /** The network side of the references only depends on the networks and
      on which VMIs exist with which network refs. */
  lemma VnSideDependsOnVnRefs(s: Store, t: Store)
    requires VnBackRefsSound(s) && VnBackRefsComplete(s)
    requires t.vns == s.vns && t.vmis.Keys == s.vmis.Keys
    requires forall v :: v in s.vmis ==> t.vmis[v].vnRefs == s.vmis[v].vnRefs
    ensures VnBackRefsSound(t) && VnBackRefsComplete(t)
  {
  }

  /** Detaching a VMI on a consistent controller succeeds, leaves the VMI
      without port group back-refs and keeps the references consistent. */
  lemma DetachKeepsLinked(s: Store, u: Uuid)
    requires Linked(s)
    ensures DetachVmiFromVpg(s, u).Success?
    ensures Linked(DetachVmiFromVpg(s, u).value)
    ensures DetachVmiFromVpg(s, u).value.vns == s.vns
    ensures u in s.vmis ==> u in DetachVmiFromVpg(s, u).value.vmis
                            && |DetachVmiFromVpg(s, u).value.vmis[u].vpgBackRefs| == 0
  {
    DetachSucceeds(s, u);
    DetachKeepsVmiSide(s, u);
    VnSideDependsOnVnRefs(s, DetachVmiFromVpg(s, u).value);
    if u in s.vmis {
      DetachEmptiesBackRefs(s, u);
    }
  }

  /** `delete_vmi` on a consistent controller succeeds, keeps it consistent,
      only removes back-refs, the deleted VMI's among them, and leaves no
      port group referring to the deleted VMI. */
  lemma DeleteVmiKeepsLinked(s: Store, u: Uuid)
    requires Linked(s)
    ensures DeleteVmi(s, u).Success?
    ensures Linked(DeleteVmi(s, u).value)
    ensures VnBackRefsShrink(s, DeleteVmi(s, u).value, u)
    ensures forall g :: g in DeleteVmi(s, u).value.vpgs ==> u !in DeleteVmi(s, u).value.vpgs[g].vmiRefs
  {
    DetachKeepsLinked(s, u);
    var t := DetachVmiFromVpg(s, u).value;
    if u in s.vmis {
      VmiDeleteKeepsLinked(t, u);
    } else {
      forall n | n in s.vns ensures u !in s.vns[n].vmiBackRefs {}
    }
  }

  /** Deleting a list that covers a network's VMI back-refs empties them. */
  lemma {:induction false} DeleteVmisEmptiesBackRefs(s: Store, us: seq<Uuid>, n: Uuid)
    requires Linked(s)
    requires n in s.vns
    requires forall x :: x in s.vns[n].vmiBackRefs ==> x in us
    ensures DeleteVmis(s, us).Success?
    ensures Linked(DeleteVmis(s, us).value)
    ensures n in DeleteVmis(s, us).value.vns
    ensures DeleteVmis(s, us).value.vns[n].vmiBackRefs == []
    decreases |us|
  {
    if |us| == 0 {
      EmptyWhenNoMember(s.vns[n].vmiBackRefs, us);
    } else {
      DeleteVmiKeepsLinked(s, us[0]);
      var s1 := DeleteVmi(s, us[0]).value;
      forall x | x in s1.vns[n].vmiBackRefs ensures x in us[1..] {
        assert x in us && x != us[0];
        var i :| 0 <= i < |us| && us[i] == x;
        assert us[1..][i - 1] == x;
      }
      DeleteVmisEmptiesBackRefs(s1, us[1..], n);
    }
  }

  /** `delete_vpg` on a consistent controller keeps it consistent: the
      VMIs the port group referred to lose their back-ref to it, so no VMI
      names it afterwards. */
  lemma DeleteVpgKeepsLinked(s: Store, g: Uuid)
    requires Linked(s)
    ensures Linked(DeleteVpg(s, g))
    ensures forall u :: u in DeleteVpg(s, g).vmis ==> g !in DeleteVpg(s, g).vmis[u].vpgBackRefs
  {
    var t := DeleteVpg(s, g);
    if g in s.vpgs {
      forall u | u in t.vmis
        ensures t.vmis[u] == s.vmis[u].(vpgBackRefs := t.vmis[u].vpgBackRefs)
        ensures g !in t.vmis[u].vpgBackRefs
        ensures |t.vmis[u].vpgBackRefs| <= |s.vmis[u].vpgBackRefs|
        ensures forall h :: h in t.vmis[u].vpgBackRefs ==> h in s.vmis[u].vpgBackRefs && h != g
        ensures forall h :: h in s.vmis[u].vpgBackRefs && h != g ==> h in t.vmis[u].vpgBackRefs
      {
        VpgDropStep(s, g, u);
      }
      DroppedVpgLinked(s, t, g);
    }
  }

  /** A store that lost port group `g`, whose VMIs lost only back-refs and
      none to a surviving port group, keeps the references consistent. */
  lemma DroppedVpgLinked(s: Store, t: Store, g: Uuid)
    requires Linked(s)
    requires t.vns == s.vns && t.vmis.Keys == s.vmis.Keys && t.vpgs == s.vpgs - {g}
    requires forall u :: u in t.vmis ==>
      && t.vmis[u] == s.vmis[u].(vpgBackRefs := t.vmis[u].vpgBackRefs)
      && |t.vmis[u].vpgBackRefs| <= |s.vmis[u].vpgBackRefs|
      && (forall h :: h in t.vmis[u].vpgBackRefs ==> h in s.vmis[u].vpgBackRefs && h != g)
      && (forall h :: h in s.vmis[u].vpgBackRefs && h != g ==> h in t.vmis[u].vpgBackRefs)
    ensures Linked(t)
  {
    DroppedVpgVmiSide(s, t, g);
    VnSideDependsOnVnRefs(s, t);
  }

  /** The port group side of `DroppedVpgLinked`. */
  lemma DroppedVpgVmiSide(s: Store, t: Store, g: Uuid)
    requires VpgBackRefsSound(s) && VpgRefsSound(s) && SingleVpg(s)
    requires t.vmis.Keys == s.vmis.Keys && t.vpgs == s.vpgs - {g}
    requires forall u :: u in t.vmis ==>
      && |t.vmis[u].vpgBackRefs| <= |s.vmis[u].vpgBackRefs|
      && (forall h :: h in t.vmis[u].vpgBackRefs ==> h in s.vmis[u].vpgBackRefs && h != g)
      && (forall h :: h in s.vmis[u].vpgBackRefs && h != g ==> h in t.vmis[u].vpgBackRefs)
    ensures VpgBackRefsSound(t) && VpgRefsSound(t) && SingleVpg(t)
  {
    forall h, u | h in t.vpgs && u in t.vpgs[h].vmiRefs ensures u in t.vmis && h in t.vmis[u].vpgBackRefs {
      assert h in s.vpgs && h != g && u in s.vpgs[h].vmiRefs;
    }
  }

  /** What deleting port group `g` does to one VMI of a consistent controller. */
  lemma VpgDropStep(s: Store, g: Uuid, u: Uuid)
    requires Linked(s) && g in s.vpgs && u in s.vmis
    ensures
      var t := DeleteVpg(s, g);
      && u in t.vmis
      && t.vmis[u] == s.vmis[u].(vpgBackRefs := t.vmis[u].vpgBackRefs)
      && g !in t.vmis[u].vpgBackRefs
      && |t.vmis[u].vpgBackRefs| <= |s.vmis[u].vpgBackRefs|
      && (forall h :: h in t.vmis[u].vpgBackRefs ==> h in s.vmis[u].vpgBackRefs && h != g)
      && (forall h :: h in s.vmis[u].vpgBackRefs && h != g ==> h in t.vmis[u].vpgBackRefs)
  {
    var t := DeleteVpg(s, g);
    if u in s.vpgs[g].vmiRefs {
      assert t.vmis[u].vpgBackRefs == Without(s.vmis[u].vpgBackRefs, g);
    } else {
      assert t.vmis[u] == s.vmis[u];
      assert g !in s.vmis[u].vpgBackRefs;
    }
  }

  /** The controller removes a network without VMI back-refs and the
      references stay consistent; no VMI refers to it any more. */
  lemma VnDeleteKeepsLinked(s: Store, n: Uuid)
    requires Linked(s)
    requires n in s.vns && s.vns[n].vmiBackRefs == []
    ensures VnDelete(s, n).Success?
    ensures VnDelete(s, n).value.vmis == s.vmis
    ensures Linked(VnDelete(s, n).value)
    ensures forall u :: u in s.vmis ==> n !in s.vmis[u].vnRefs
  {
  }

  /** On a consistent controller `delete_vn` succeeds, and afterwards no VMI
      refers to the deleted network, the references stay consistent, every
      port group names only surviving VMIs, and a port group the cascade left
      without VMI refs is gone. */
  lemma DeleteVnCascades(s: Store, n: Uuid)
    requires Linked(s)
    requires n in s.vns
    ensures DeleteVn(s, n).Success?
    ensures forall u :: u in DeleteVn(s, n).value.vmis ==> n !in DeleteVn(s, n).value.vmis[u].vnRefs
    ensures Linked(DeleteVn(s, n).value)
    ensures forall g, x :: g in DeleteVn(s, n).value.vpgs && x in DeleteVn(s, n).value.vpgs[g].vmiRefs ==>
      x in DeleteVn(s, n).value.vmis
    ensures forall g :: g in DeleteVn(s, n).value.vpgs ==>
      g in s.vpgs && (s.vpgs[g].vmiRefs != {} ==> DeleteVn(s, n).value.vpgs[g].vmiRefs != {})
  {
    var us := s.vns[n].vmiBackRefs;
    DeleteVmisEmptiesBackRefs(s, us, n);
    var s1 := DeleteVmis(s, us).value;
    VnDeleteKeepsLinked(s1, n);
    assert DeleteVn(s, n) == VnDelete(s1, n);
    var r := DeleteVn(s, n).value;
    EmptiedVpgsGone(s, r);
  }

  /** A consistent store whose port groups are port groups of `s` none of
      which was left without VMI refs: each port group names only its VMIs,
      and each one that had VMI refs in `s` still has some. */
  lemma EmptiedVpgsGone(s: Store, r: Store)
    requires VpgRefsSound(r)
    requires r.vpgs.Keys <= s.vpgs.Keys && NoVpgEmptied(s, r)
    ensures forall g, x :: g in r.vpgs && x in r.vpgs[g].vmiRefs ==> x in r.vmis
    ensures forall g :: g in r.vpgs ==> g in s.vpgs && (s.vpgs[g].vmiRefs != {} ==> r.vpgs[g].vmiRefs != {})
  {
  }

  // ---- idempotent create ----

  /** Creating the same network twice has the effect of creating it once. */
  lemma CreateVnTwiceIsOnce(s: Store, vn: VirtualNetwork)
    ensures CreateVn(CreateVn(s, vn), vn) == CreateVn(s, vn)
  {
  }

  /** A port group create that went through, repeated, changes nothing. */
  lemma CreateVpgTwiceIsOnce(s: Store, vpg: VirtualPortGroup)
    ensures CreateVpg(s, vpg).Success? ==> CreateVpg(CreateVpg(s, vpg).value, vpg) == CreateVpg(s, vpg)
  {
  }

  /** A VMI create that went through, repeated, changes nothing. */
  lemma CreateVmiTwiceIsOnce(s: Store, vmi: VirtualMachineInterface)
    ensures CreateVmi(s, vmi).Success? ==> CreateVmi(CreateVmi(s, vmi).value, vmi) == CreateVmi(s, vmi)
  {
  }

  // ---- physical interface round trip ----

  function PiIds(pis: seq<PhysicalInterface>): (us: seq<Uuid>)
    ensures |us| == |pis|
    ensures forall i :: 0 <= i < |pis| ==> us[i] == pis[i].uuid
  {
    if |pis| == 0 then [] else [pis[0].uuid] + PiIds(pis[1..])
  }

  lemma {:induction false} DelPiAppend(refs: seq<PiRef>, extra: seq<PiRef>, u: Uuid)
    requires forall i :: 0 <= i < |refs| ==> refs[i].uuid != u
    ensures DropPi(refs + extra, u) == refs + DropPi(extra, u)
    decreases |refs|
  {
    if |refs| == 0 {
      assert refs + extra == extra;
    } else {
      var tail := refs[1..];
      assert (refs + extra)[0] == refs[0];
      assert (refs + extra)[1..] == tail + extra;
      DelPiAppend(tail, extra, u);
      assert refs == [refs[0]] + tail;
    }
  }

  lemma NotListedDiffers(refs: seq<PiRef>, u: Uuid)
    requires u !in PiUuids(refs)
    ensures forall i :: 0 <= i < |refs| ==> refs[i].uuid != u
  {
    forall i | 0 <= i < |refs| ensures refs[i].uuid != u {
      assert refs[i].uuid in PiUuids(refs);
    }
  }

  /** Detaching from `refs + extra` ids none of `refs` holds only edits `extra`. */
  lemma {:induction false} DelPisKeepsPrefix(s: Store, refs: seq<PiRef>, extra: seq<PiRef>, us: seq<Uuid>)
    requires forall i :: 0 <= i < |us| ==> us[i] in s.pis && us[i] !in PiUuids(refs)
    ensures DelPis(s, refs + extra, us).Success?
    ensures |DelPis(s, refs + extra, us).value| >= |refs|
    ensures DelPis(s, refs + extra, us).value[..|refs|] == refs
    ensures PiUuids(DelPis(s, refs + extra, us).value[|refs|..]) == PiUuids(extra) - (set u | u in us)
    decreases |us|
  {
    if |us| == 0 {
      assert (refs + extra)[|refs|..] == extra;
    } else {
      var u := us[0];
      assert s.pis[u].uuid == u;
      NotListedDiffers(refs, u);
      DelPiAppend(refs, extra, u);
      var extra' := DelPi(extra, u);
      assert forall i :: 0 <= i < |us[1..]| ==> us[1..][i] == us[i + 1];
      DelPisKeepsPrefix(s, refs, extra', us[1..]);
      assert (set x | x in us) == {u} + (set x | x in us[1..]) by {
        forall x | x in us ensures x in {u} + (set y | y in us[1..]) {
          var i :| 0 <= i < |us| && us[i] == x;
          if i > 0 { assert us[1..][i - 1] == x; }
        }
      }
    }
  }

  lemma EmptyWhenNoUuids(refs: seq<PiRef>)
    requires PiUuids(refs) == {}
    ensures refs == []
  {
    HeadUuidListed(refs);
  }

  lemma HeadUuidListed(refs: seq<PiRef>)
    ensures |refs| > 0 ==> refs[0].uuid in PiUuids(refs)
  {
  }

  /** Attaching interfaces none of which was attached, then detaching the
      same interfaces, restores the port group's interface refs exactly;
      each step issues exactly one port group update. */
  lemma {:induction false} AttachThenDetachRestores(s: Store, vpg: VirtualPortGroup, pis: seq<PhysicalInterface>)
    requires vpg.uuid in s.vpgs && s.vpgs[vpg.uuid] == vpg
    requires forall i :: 0 <= i < |pis| ==> pis[i].uuid in s.pis && pis[i].uuid !in PiUuids(vpg.piRefs)
    ensures AttachPisToVpg(s, vpg, pis).Success?
    ensures
      var attached := vpg.(piRefs := AddPis(vpg.piRefs, pis));
      var r := DetachPisFromVpg(AttachPisToVpg(s, vpg, pis).value, attached, PiIds(pis));
      && r.Success?
      && r.value.vpgs[vpg.uuid].piRefs == vpg.piRefs
      && r.value.writes == s.writes + (if |pis| == 0 then [] else
           [Updated(VirtualPortGroupKind, vpg.uuid), Updated(VirtualPortGroupKind, vpg.uuid)])
  {
    var attached := vpg.(piRefs := AddPis(vpg.piRefs, pis));
    var s1 := AttachPisToVpg(s, vpg, pis).value;
    if |pis| > 0 {
      assert s1.vpgs[vpg.uuid] == attached;
      assert VmiRefsHeld(s1, s1.vpgs[vpg.uuid].vmiRefs, attached.vmiRefs);
    }
    AddThenDelRestores(s1, vpg.piRefs, pis);
  }

  /** On the in-memory refs: adding interfaces none of which is referenced,
      then removing the same interfaces, gives back the original refs. */
  lemma AddThenDelRestores(s: Store, refs: seq<PiRef>, pis: seq<PhysicalInterface>)
    requires forall i :: 0 <= i < |pis| ==> pis[i].uuid in s.pis && pis[i].uuid !in PiUuids(refs)
    ensures DelPis(s, AddPis(refs, pis), PiIds(pis)) == Success(refs)
  {
    var added := AddPis(refs, pis);
    var extra := added[|refs|..];
    assert added == refs + extra;
    var us := PiIds(pis);
    assert forall i :: 0 <= i < |us| ==> us[i] in s.pis && us[i] !in PiUuids(refs);
    DelPisKeepsPrefix(s, refs, extra, us);
    var d := DelPis(s, added, us).value;
    assert PiUuids(d[|refs|..]) == {} by {
      AppendedUuids(refs, pis);
      PisUuidsAreIds(pis);
    }
    EmptyWhenNoUuids(d[|refs|..]);
    assert d == d[..|refs|] + d[|refs|..];
    assert d == refs;
    assert DelPis(s, added, us) == Success(d);
  }

  /** The uuids of the refs `AddPis` appends are among the interfaces'. */
  lemma AppendedUuids(refs: seq<PiRef>, pis: seq<PhysicalInterface>)
    ensures PiUuids(AddPis(refs, pis)[|refs|..]) <= PisUuids(pis)
  {
    var r := AddPis(refs, pis);
    AddPisAppendsNew(refs, pis);
    forall x | x in PiUuids(r[|refs|..]) ensures x in PisUuids(pis) {
      var i :| 0 <= i < |r[|refs|..]| && r[|refs|..][i].uuid == x;
      assert r[|refs| + i].uuid == x;
    }
  }

  lemma PisUuidsAreIds(pis: seq<PhysicalInterface>)
    ensures PisUuids(pis) == (set u | u in PiIds(pis))
  {
    var us := PiIds(pis);
    forall x | x in PisUuids(pis) ensures x in us {
      var j :| 0 <= j < |pis| && pis[j].uuid == x;
      assert us[j] == x;
    }
    forall x | x in us ensures x in PisUuids(pis) {
      var j :| 0 <= j < |us| && us[j] == x;
      assert pis[j].uuid == x;
    }
  }

  /** Every ref `AddPis` appends is for one of the given interfaces. */
  lemma {:induction false} AddPisAppendsNew(refs: seq<PiRef>, pis: seq<PhysicalInterface>)
    ensures forall i :: |refs| <= i < |AddPis(refs, pis)| ==> AddPis(refs, pis)[i].uuid in PisUuids(pis)
    ensures forall i :: |refs| <= i < |AddPis(refs, pis)| ==> AddPis(refs, pis)[i].uuid !in PiUuids(refs)
    decreases |pis|
  {
    if |pis| > 0 {
      var step := AddPi(refs, pis[0]);
      AddPisAppendsNew(step, pis[1..]);
      var r := AddPis(refs, pis);
      forall i | |refs| <= i < |r| ensures r[i].uuid in PisUuids(pis) && r[i].uuid !in PiUuids(refs) {
        if i < |step| {
          assert step != refs;
          assert r[i] == step[i];
        } else {
          var j :| 0 <= j < |pis[1..]| && pis[1..][j].uuid == r[i].uuid;
          assert pis[j + 1].uuid == r[i].uuid;
        }
      }
    }
  }

  // ---- binding elision ----

  /** Once a VMI's bindings are set from a port group, computing them again
      from the unchanged port group issues no update. */
  lemma BindingsSecondCallIsNoOp(s: Store, vmi: VirtualMachineInterface, vpg: VirtualPortGroup)
    requires ProfileReady(vpg)
    requires vmi.uuid in s.vmis && vmi == s.vmis[vmi.uuid]
    ensures CreateVmiBindings(s, vmi, vpg).Success?
    ensures
      var s1 := CreateVmiBindings(s, vmi, vpg).value;
      CreateVmiBindings(s1, s1.vmis[vmi.uuid], vpg) == Success(s1)
  {
  }

  // ---- VLAN migration ----

  /** The conditions under which the first half of the migration goes
      through and frees the name: the old VMI exists, its first port group
      back-ref names an existing port group that refers to it and is its
      only port group, and its name is free. */
  ghost predicate VacateReady(c: Client, s: Store, oldVmi: VirtualMachineInterface, vn: VirtualNetwork, newVlan: int) {
    && oldVmi.uuid in s.vmis
    && |oldVmi.vpgBackRefs| > 0
    && oldVmi.vpgBackRefs[0] in s.vpgs
    && oldVmi.uuid in s.vpgs[oldVmi.vpgBackRefs[0]].vmiRefs
    && (forall g :: g in s.vmis[oldVmi.uuid].vpgBackRefs ==> g == oldVmi.vpgBackRefs[0])
    && NameFreeFor(s, oldVmi.uuid, VmiWithNewVlan(c, newVlan, oldVmi, vn).fqName)
  }

  /** The conditions under which the whole migration goes through: the
      above, and the network the new VMI refers to exists. */
  ghost predicate MigrationReady(c: Client, s: Store, oldVmi: VirtualMachineInterface, vn: VirtualNetwork, newVlan: int) {
    VacateReady(c, s, oldVmi, vn, newVlan) && vn.uuid in s.vns
  }

  /** Removing a VMI whose only port group is `g` from `g`'s refs clears the
      VMI's back-refs and changes no other VMI. */
  lemma UnlinkStep(s: Store, g: Uuid, u: Uuid)
    requires g in s.vpgs && u in s.vpgs[g].vmiRefs && u in s.vmis
    requires forall x :: x in s.vmis[u].vpgBackRefs ==> x == g
    ensures
      var t := UpdateVpg(s, s.vpgs[g].(vmiRefs := s.vpgs[g].vmiRefs - {u}));
      && u in t.vmis && t.vmis[u] == s.vmis[u].(vpgBackRefs := [])
      && t.vmis - {u} == s.vmis - {u}
      && t.vpgs == s.vpgs[g := s.vpgs[g].(vmiRefs := s.vpgs[g].vmiRefs - {u})]
      && t.vns == s.vns
  {
    var vpg := s.vpgs[g];
    var t := VpgUpdate(s, vpg.(vmiRefs := vpg.vmiRefs - {u})).value;
    assert t.vmis == Relink(s.vmis, g, vpg.vmiRefs, vpg.vmiRefs - {u});
    assert t.vmis[u].vpgBackRefs == Without(s.vmis[u].vpgBackRefs, g);
    RemoveAgrees(t.vmis, s.vmis, u);
  }

  /** Adding a VMI without back-refs to `g`'s refs makes `g` its only port
      group and changes no other VMI. */
  lemma LinkStep(s: Store, g: Uuid, u: Uuid)
    requires g in s.vpgs && u !in s.vpgs[g].vmiRefs && u in s.vmis
    requires s.vmis[u].vpgBackRefs == []
    ensures
      var t := UpdateVpg(s, s.vpgs[g].(vmiRefs := s.vpgs[g].vmiRefs + {u}));
      && t.vmis == s.vmis[u := s.vmis[u].(vpgBackRefs := [g])]
      && t.vpgs == s.vpgs[g := s.vpgs[g].(vmiRefs := s.vpgs[g].vmiRefs + {u})]
      && t.vns == s.vns
  {
    var vpg := s.vpgs[g];
    var t := VpgUpdate(s, vpg.(vmiRefs := vpg.vmiRefs + {u})).value;
    assert t.vmis == Relink(s.vmis, g, vpg.vmiRefs, vpg.vmiRefs + {u});
    assert t.vmis[u].vpgBackRefs == [] + [g] == [g];
    PutAgrees(t.vmis, s.vmis, u, s.vmis[u].(vpgBackRefs := [g]));
  }

  /** Network `n`'s VMI back-refs once the controller removed VMI `u`:
      `u` is taken out where `u` referred to `n`. */
  ghost function BackRefsAfterRemoval(s: Store, u: Uuid, n: Uuid): seq<Uuid>
    requires u in s.vmis && n in s.vns
  {
    if n in s.vmis[u].vnRefs then Without(s.vns[n].vmiBackRefs, u) else s.vns[n].vmiBackRefs
  }

  /** The store between the two halves of the migration: the old VMI
      detached from port group `g` and deleted. */
  function Vacated(s: Store, g: Uuid, u: Uuid): Store
    requires g in s.vpgs && u in s.vmis
  {
    var s1 := UpdateVpg(s, s.vpgs[g].(vmiRefs := s.vpgs[g].vmiRefs - {u}));
    match VmiDelete(s1, u)
    case Success(s2) => s2
    case Failure(_) => s1
  }

  /** Detaching a VMI from its only port group `g` and deleting it succeeds;
      the result lacks that VMI and `g`'s ref to it, and keeps every other
      VMI as it was. */
  lemma VacateStep(s: Store, g: Uuid, u: Uuid)
    requires g in s.vpgs && u in s.vpgs[g].vmiRefs && u in s.vmis
    requires forall x :: x in s.vmis[u].vpgBackRefs ==> x == g
    ensures
      var s1 := UpdateVpg(s, s.vpgs[g].(vmiRefs := s.vpgs[g].vmiRefs - {u}));
      VmiDelete(s1, u) == Success(Vacated(s, g, u))
    ensures Vacated(s, g, u).vmis == s.vmis - {u}
    ensures Vacated(s, g, u).vpgs == s.vpgs[g := s.vpgs[g].(vmiRefs := s.vpgs[g].vmiRefs - {u})]
    ensures Vacated(s, g, u).vns.Keys == s.vns.Keys
    ensures Vacated(s, g, u).pis == s.pis
    ensures forall n :: n in s.vns ==>
      Vacated(s, g, u).vns[n] == s.vns[n].(vmiBackRefs := BackRefsAfterRemoval(s, u, n))
  {
    UnlinkStep(s, g, u);
    var s1 := UpdateVpg(s, s.vpgs[g].(vmiRefs := s.vpgs[g].vmiRefs - {u}));
    VmiDeleteSucceeds(s1, u);
    assert s1.vmis[u].vnRefs == s.vmis[u].vnRefs;
  }

  /** Under the migration's conditions the old VMI is deleted and no other
      VMI changes; its name is then free for the new one. */
  lemma VacatedFrees(c: Client, s: Store, oldVmi: VirtualMachineInterface, vn: VirtualNetwork, newVlan: int)
    requires VacateReady(c, s, oldVmi, vn, newVlan)
    ensures
      var u := oldVmi.uuid;
      var g := oldVmi.vpgBackRefs[0];
      var s2 := Vacated(s, g, u);
      && s2.vmis == s.vmis - {u}
      && s2.vpgs == s.vpgs[g := s.vpgs[g].(vmiRefs := s.vpgs[g].vmiRefs - {u})]
      && s2.vns.Keys == s.vns.Keys
      && VmiWithNewVlan(c, newVlan, oldVmi, vn).fqName !in VmiNames(s2)
      && DeleteOldVmi(s, oldVmi, s.vpgs[g]) == Success(s2)
  {
    var u := oldVmi.uuid;
    var g := oldVmi.vpgBackRefs[0];
    VacateStep(s, g, u);
    var s2 := Vacated(s, g, u);
    var name := VmiWithNewVlan(c, newVlan, oldVmi, vn).fqName;
    forall v | v in s2.vmis ensures s2.vmis[v].fqName != name {
      assert s2.vmis[v] == s.vmis[v];
    }
  }

  /** The store the migration produces. */
  function Migrated(c: Client, s: Store, oldVmi: VirtualMachineInterface, vn: VirtualNetwork, newVlan: int): Store
    requires MigrationReady(c, s, oldVmi, vn, newVlan)
  {
    var g := oldVmi.vpgBackRefs[0];
    var s2 := Vacated(s, g, oldVmi.uuid);
    match CreateNewVmi(s2, VmiWithNewVlan(c, newVlan, oldVmi, vn), s.vpgs[g].(vmiRefs := s.vpgs[g].vmiRefs - {oldVmi.uuid}))
    case Success(t) => t
    case Failure(_) => s2
  }

  /** Under the migration's conditions `recreate_vmi_with_new_vlan`
      succeeds with that store. */
  lemma RecreateUnfolds(c: Client, s: Store, oldVmi: VirtualMachineInterface, vn: VirtualNetwork, newVlan: int)
    requires MigrationReady(c, s, oldVmi, vn, newVlan)
    ensures RecreateVmiWithNewVlan(c, s, oldVmi, vn, newVlan) == Success(Migrated(c, s, oldVmi, vn, newVlan))
  {
    VacatedFrees(c, s, oldVmi, vn, newVlan);
  }

  /** Without the network the new VMI refers to, the old VMI is deleted and
      the create is refused with "not found", which escapes the migration. */
  lemma RecreateNeedsVn(c: Client, s: Store, oldVmi: VirtualMachineInterface, vn: VirtualNetwork, newVlan: int)
    requires VacateReady(c, s, oldVmi, vn, newVlan) && vn.uuid !in s.vns
    ensures RecreateVmiWithNewVlan(c, s, oldVmi, vn, newVlan) == Failure(NoIdError)
  {
    VacatedFrees(c, s, oldVmi, vn, newVlan);
    var vmi := VmiWithNewVlan(c, newVlan, oldVmi, vn);
    var s2 := Vacated(s, oldVmi.vpgBackRefs[0], oldVmi.uuid);
    assert vn.uuid in vmi.vnRefs && vn.uuid !in s2.vns;
  }

  /** When `create_vmi` absorbed the create because another VMI holds the
      name, the port group push names a VMI the controller lacks; it is
      refused and absorbed, so nothing changes and no dangling ref appears. */
  lemma AbsorbedCreateLeavesVpg(s: Store, vmi: VirtualMachineInterface, g: Uuid)
    requires vmi.uuid !in s.vmis && vmi.fqName in VmiNames(s)
    requires g in s.vpgs && vmi.uuid !in s.vpgs[g].vmiRefs
    ensures CreateNewVmi(s, vmi, s.vpgs[g]) == Success(s)
  {
  }

  /** `_create_new_vmi` on a store where the uuid and the name are free, the
      networks exist and the port group does not refer to the VMI yet: the
      VMI is created with `g` as its only port group, and only `g`'s VMI
      refs change. */
  lemma CreateNewVmiLinks(s: Store, vmi: VirtualMachineInterface, g: Uuid)
    requires vmi.uuid !in s.vmis && vmi.fqName !in VmiNames(s) && VnRefsHeld(s, vmi.vnRefs)
    requires g in s.vpgs && vmi.uuid !in s.vpgs[g].vmiRefs
    ensures CreateNewVmi(s, vmi, s.vpgs[g]).Success?
    ensures
      var t := CreateNewVmi(s, vmi, s.vpgs[g]).value;
      && t.vmis == s.vmis[vmi.uuid := vmi.(vpgBackRefs := [g])]
      && t.vpgs == s.vpgs[g := s.vpgs[g].(vmiRefs := s.vpgs[g].vmiRefs + {vmi.uuid})]
      && t.pis == s.pis
      && t.vns.Keys == s.vns.Keys
      && (forall n :: n in s.vns && n in vmi.vnRefs ==>
            t.vns[n] == s.vns[n].(vmiBackRefs := s.vns[n].vmiBackRefs + [vmi.uuid]))
      && (forall n :: n in s.vns && n !in vmi.vnRefs ==> t.vns[n] == s.vns[n])
  {
    var s1 := CreateVmi(s, vmi).value;
    assert s1.vmis == s.vmis[vmi.uuid := vmi.(vpgBackRefs := [])];
    assert s1.vpgs == s.vpgs;
    LinkStep(s1, g, vmi.uuid);
    PutTwice(s.vmis, vmi.uuid, vmi.(vpgBackRefs := []), vmi.(vpgBackRefs := [g]));
  }

  /** The migrated store is `_create_new_vmi` applied to the vacated store,
      with the port group as it is stored there. */
  lemma MigratedFromVacated(c: Client, s: Store, oldVmi: VirtualMachineInterface, vn: VirtualNetwork, newVlan: int)
    requires MigrationReady(c, s, oldVmi, vn, newVlan)
    ensures
      var u := oldVmi.uuid;
      var g := oldVmi.vpgBackRefs[0];
      var s2 := Vacated(s, g, u);
      var vmi := VmiWithNewVlan(c, newVlan, oldVmi, vn);
      && s2.vmis == s.vmis - {u}
      && s2.vpgs == s.vpgs[g := s.vpgs[g].(vmiRefs := s.vpgs[g].vmiRefs - {u})]
      && vmi.fqName !in VmiNames(s2)
      && VnRefsHeld(s2, vmi.vnRefs)
      && Success(Migrated(c, s, oldVmi, vn, newVlan)) == CreateNewVmi(s2, vmi, s2.vpgs[g])
  {
    VacatedFrees(c, s, oldVmi, vn, newVlan);
  }

  /** In the migrated store the VMI is replaced and no other VMI changes. */
  lemma MigratedVmis(c: Client, s: Store, oldVmi: VirtualMachineInterface, vn: VirtualNetwork, newVlan: int)
    requires MigrationReady(c, s, oldVmi, vn, newVlan)
    ensures Migrated(c, s, oldVmi, vn, newVlan).vmis
            == s.vmis[oldVmi.uuid := VmiWithNewVlan(c, newVlan, oldVmi, vn).(vpgBackRefs := [oldVmi.vpgBackRefs[0]])]
  {
    var u := oldVmi.uuid;
    var g := oldVmi.vpgBackRefs[0];
    var vmi := VmiWithNewVlan(c, newVlan, oldVmi, vn);
    MigratedFromVacated(c, s, oldVmi, vn, newVlan);
    CreateNewVmiLinks(Vacated(s, g, u), vmi, g);
    RemoveThenPut(s.vmis, u, vmi.(vpgBackRefs := [g]));
  }

  /** In the migrated store the physical interfaces are as before, and each
      network lost the old VMI where it referred to it, and the network of
      the new VMI lists it last. */
  lemma MigratedVns(c: Client, s: Store, oldVmi: VirtualMachineInterface, vn: VirtualNetwork, newVlan: int)
    requires MigrationReady(c, s, oldVmi, vn, newVlan)
    ensures Migrated(c, s, oldVmi, vn, newVlan).pis == s.pis
    ensures Migrated(c, s, oldVmi, vn, newVlan).vns.Keys == s.vns.Keys
    ensures forall n :: n in s.vns ==>
      Migrated(c, s, oldVmi, vn, newVlan).vns[n]
        == s.vns[n].(vmiBackRefs := BackRefsAfterRemoval(s, oldVmi.uuid, n) + (if n == vn.uuid then [oldVmi.uuid] else []))
  {
    var u := oldVmi.uuid;
    var g := oldVmi.vpgBackRefs[0];
    var vmi := VmiWithNewVlan(c, newVlan, oldVmi, vn);
    MigratedFromVacated(c, s, oldVmi, vn, newVlan);
    VacateStep(s, g, u);
    var s2 := Vacated(s, g, u);
    CreateNewVmiLinks(s2, vmi, g);
    VnsRemovedThenAdded(s, s2, Migrated(c, s, oldVmi, vn, newVlan), u, vmi.vnRefs, vn.uuid);
  }

  /** Networks that first lost VMI `u` as its removal prescribes, then
      gained it at the end where it now refers to them, a single network. */
  lemma VnsRemovedThenAdded(s: Store, s2: Store, t: Store, u: Uuid, refs: seq<Uuid>, m: Uuid)
    requires u in s.vmis && refs == [m]
    requires s2.vns.Keys == s.vns.Keys
    requires forall n :: n in s.vns ==> s2.vns[n] == s.vns[n].(vmiBackRefs := BackRefsAfterRemoval(s, u, n))
    requires t.vns.Keys == s2.vns.Keys
    requires forall n :: n in s2.vns && n in refs ==> t.vns[n] == s2.vns[n].(vmiBackRefs := s2.vns[n].vmiBackRefs + [u])
    requires forall n :: n in s2.vns && n !in refs ==> t.vns[n] == s2.vns[n]
    ensures forall n :: n in s.vns ==>
      t.vns[n] == s.vns[n].(vmiBackRefs := BackRefsAfterRemoval(s, u, n) + (if n == m then [u] else []))
  {
    forall n | n in s.vns
      ensures t.vns[n] == s.vns[n].(vmiBackRefs := BackRefsAfterRemoval(s, u, n) + (if n == m then [u] else []))
    {
      if n == m {
        assert n in refs;
      } else {
        assert n !in refs;
        assert BackRefsAfterRemoval(s, u, n) + [] == BackRefsAfterRemoval(s, u, n);
      }
    }
  }

  /** In the migrated store the port groups are as before. */
  lemma MigratedVpgs(c: Client, s: Store, oldVmi: VirtualMachineInterface, vn: VirtualNetwork, newVlan: int)
    requires MigrationReady(c, s, oldVmi, vn, newVlan)
    ensures Migrated(c, s, oldVmi, vn, newVlan).vpgs == s.vpgs
  {
    var u := oldVmi.uuid;
    var g := oldVmi.vpgBackRefs[0];
    MigratedFromVacated(c, s, oldVmi, vn, newVlan);
    CreateNewVmiLinks(Vacated(s, g, u), VmiWithNewVlan(c, newVlan, oldVmi, vn), g);
    LeaveThenRejoin(s.vpgs, g, u);
  }

  /** Removing a VMI from a port group's refs and adding it back restores
      the port group. */
  lemma LeaveThenRejoin(m: map<Uuid, VirtualPortGroup>, g: Uuid, u: Uuid)
    requires g in m && u in m[g].vmiRefs
    ensures
      var left := m[g := m[g].(vmiRefs := m[g].vmiRefs - {u})];
      left[g := left[g].(vmiRefs := left[g].vmiRefs + {u})] == m
  {
    assert (m[g].vmiRefs - {u}) + {u} == m[g].vmiRefs;
  }

  /** After the migration the VMI has its old uuid and name, refers to the
      network, carries the new VLAN and the old bindings verbatim, and has
      the same port group as its only one; every other VMI is untouched, no
      port group changes, in particular none is deleted, the physical
      interfaces stay, and the networks only lose the old VMI where it
      referred to them, the new VMI's network listing it last. */
  lemma RecreateKeepsIdentity(c: Client, s: Store, oldVmi: VirtualMachineInterface, vn: VirtualNetwork, newVlan: int)
    requires MigrationReady(c, s, oldVmi, vn, newVlan)
    ensures RecreateVmiWithNewVlan(c, s, oldVmi, vn, newVlan).Success?
    ensures RecreateVmiWithNewVlan(c, s, oldVmi, vn, newVlan).value.vmis
            == s.vmis[oldVmi.uuid := VmiWithNewVlan(c, newVlan, oldVmi, vn).(vpgBackRefs := [oldVmi.vpgBackRefs[0]])]
    ensures RecreateVmiWithNewVlan(c, s, oldVmi, vn, newVlan).value.vpgs == s.vpgs
    ensures RecreateVmiWithNewVlan(c, s, oldVmi, vn, newVlan).value.pis == s.pis
    ensures RecreateVmiWithNewVlan(c, s, oldVmi, vn, newVlan).value.vns.Keys == s.vns.Keys
    ensures forall n :: n in s.vns ==>
      RecreateVmiWithNewVlan(c, s, oldVmi, vn, newVlan).value.vns[n]
        == s.vns[n].(vmiBackRefs := BackRefsAfterRemoval(s, oldVmi.uuid, n) + (if n == vn.uuid then [oldVmi.uuid] else []))
  {
    RecreateUnfolds(c, s, oldVmi, vn, newVlan);
    MigratedVmis(c, s, oldVmi, vn, newVlan);
    MigratedVpgs(c, s, oldVmi, vn, newVlan);
    MigratedVns(c, s, oldVmi, vn, newVlan);
  }

  /** The scenario of a network with a single VMI: after migrating it, the
      network's VLAN reads back as the new tag. */
  lemma RecreateThenVlanIsNew(c: Client, s: Store, oldVmi: VirtualMachineInterface, vn: VirtualNetwork, newVlan: int)
    requires MigrationReady(c, s, oldVmi, vn, newVlan)
    requires vn.uuid in s.vns && s.vns[vn.uuid].vmiBackRefs == [oldVmi.uuid]
    requires vn.uuid in s.vmis[oldVmi.uuid].vnRefs
    ensures RecreateVmiWithNewVlan(c, s, oldVmi, vn, newVlan).Success?
    ensures
      var t := RecreateVmiWithNewVlan(c, s, oldVmi, vn, newVlan).value;
      && vn.uuid in t.vns
      && t.vns[vn.uuid].vmiBackRefs == [oldVmi.uuid]
      && GetVnVlan(t, t.vns[vn.uuid]) == Success(Some(newVlan))
  {
    RecreateKeepsIdentity(c, s, oldVmi, vn, newVlan);
    RecreateUnfolds(c, s, oldVmi, vn, newVlan);
    MigratedFromVacated(c, s, oldVmi, vn, newVlan);
    VacatedVnEmpty(s, oldVmi.vpgBackRefs[0], oldVmi.uuid, vn.uuid);
  }

  /** Deleting the only VMI of network `n` empties `n`'s back-refs. */
  lemma VacatedVnEmpty(s: Store, g: Uuid, u: Uuid, n: Uuid)
    requires g in s.vpgs && u in s.vpgs[g].vmiRefs && u in s.vmis
    requires forall x :: x in s.vmis[u].vpgBackRefs ==> x == g
    requires n in s.vns && s.vns[n].vmiBackRefs == [u] && n in s.vmis[u].vnRefs
    ensures n in Vacated(s, g, u).vns && Vacated(s, g, u).vns[n].vmiBackRefs == []
  {
    UnlinkStep(s, g, u);
    VacateStep(s, g, u);
    assert Without([u], u) == [];
  }
}

=== FILE: wrappers.dfy ===
/** Failure-compatible wrappers shared by the whole model: `Option` stands for
    a Python value that may be `None`, `Result` for a call that either returns
    or raises an exception. */
module Wrappers {

  datatype Option<+T> = None | Some(value: T)

  datatype Result<+T, +E> = Success(value: T) | Failure(error: E) {

    predicate IsFailure() {
      Failure?
    }

    function PropagateFailure<U>(): Result<U, E>
      requires Failure?
    {
      Failure(error)
    }

    function Extract(): T
      requires Success?
    {
      value
    }
  }
}
